=== FILE: README.md ===
# Dubbing pipeline and upload tool — a Dafny model

This project models the decision logic of two small Python pipelines from one repository.

**Dubbing pipeline (`src/`).** A transcript is a list of segments. Each segment has a `start`, an `end`, a `text` and whatever other keys the speech-to-text engine adds. The pipeline has three stages:

- Translation replaces each segment's text on its own. If the service raises, the original text is kept.
- Synthesis chooses one voice and one rate/pitch preset. It then writes one `seg_NNNN.mp3` per non-blank segment and returns a list aligned with the segments, holding `None` for each blank one.
- The compositor decides which tracks enter the final audio: the original track ducked to 0.2 in `voiceover` mode, then one speech clip per usable file at its segment's start. If no track remains, it uses a silent track. The final audio is always set to the video's duration.

**Upload tool.** This part covers:

- configuration validation, which builds an ordered error list;
- video validation, which stops early on a missing file and then checks size, extension and mime type;
- video info and the default thumbnail path;
- the uploader: chunk arithmetic, splitting the file into 10 MiB chunks, the init payload, and the init → chunks → commit sequence that stops at the first reply that is not `ok`.

Everything is written as immutable datatypes and pure functions. The external engines and the operating system are function-typed parameters or plain values:

- the translation service, the speech synthesiser and the HTTP service are oracle functions;
- `os.path.exists` is an oracle function;
- file existence, file contents and the mime guess are values.

`Text.Lower` and `Text.Upper` (`str.lower()`/`str.upper()` on ASCII letters) are helpers. Their meaning is read through the rows of `VideoProcessor.FileExtension`, `Config.ParseFlag` and `TikTokClient.InitPayloadFor`, which use them.

Modules follow the source files:

- `Translator`, `TtsEngine` and `Mixer` model `src/`.
- `Config`, `VideoProcessor` and `TikTokClient` model the upload tool.
- `Pipeline` chains the dubbing stages.
- `Text`, `IndexFormat` and `Paths` give the Python string, `{i:04d}` and `os.path` semantics the core relies on.
- `Common` holds `Option`, `Result` and `byte`.

The model follows the code on these points:

- A synthesis call that raises is not caught (src/tts_engine.py:80). So `GenerateAudioSegments` stops with the failing segment's index. It does not record an absent entry and continue.
- `mix_audio` writes straight to the output path (src/mixer.py:63). No write-to-temporary-then-rename step is modelled.
- Translation copies the whole segment dict (src/translator.py:24). So a `Segment` carries an opaque `rest` map, which translation provably keeps.
- Segments are never mutated because Dafny values are immutable. The translated list is a new value.

## Model

| member | source | states |
|---|---|---|
| Translator.TranslateText | src/translator.py:3-13 | the service's translation when it returns, the input text unchanged when it raises |
| Translator.TranslateSegments | src/translator.py:15-28 | same length as the input; entry `i` is input segment `i` with only `text` replaced by its own translation |
| Translator.TranslationKeepsTiming | src/translator.py:22-26 | every `start`, `end` and other key of segment `i` survives translation |
| Translator.FailingServiceIsIdentity | src/translator.py:7-13 | with a service that always raises, the translated list equals the input list |
| Translator.TranslateSegmentsAppend | src/translator.py:22-26 | segments are translated independently: translating `a + b` is translating `a` then `b` |
| TtsEngine.VoiceMappingHasFemaleFallback | src/tts_engine.py:6-18 | every entry of the voice table has a `female` voice, so the gender fallback never fails |
| TtsEngine.EntryVoice | src/tts_engine.py:33-34 | a listed language gives its voice for the gender, or its female voice when that gender is absent |
| TtsEngine.BaseLanguage | src/tts_engine.py:37 | `lang.split('-')[0]`: the longest prefix of the code without a `-`, ending where the first `-` stands or at the end |
| TtsEngine.GetVoice | src/tts_engine.py:27-42 | exact code first, then the part before the first `-`, then `en-US-JennyNeural`; the result is always a table voice or that default |
| TtsEngine.TableKeysHaveNoRegion | src/tts_engine.py:6-18 | no table key contains `-` |
| TtsEngine.RegionalCodeFallsBack | src/tts_engine.py:36-39 | an unlisted `base-region` code gets the same voice as its listed base |
| TtsEngine.EntriesAreFemaleAndMale | src/tts_engine.py:6-18 | each table entry offers exactly a female and a male voice |
| TtsEngine.UnknownGenderIsFemale | src/tts_engine.py:34 | a gender other than female or male resolves like female |
| TtsEngine.StyleProsody | src/tts_engine.py:58-66 | `tvb` gives `+15%`/`+5Hz` and every other style gives `+0%`/`+0Hz`, in both directions |
| TtsEngine.DeliveryFor | src/tts_engine.py:56-66 | the voice is `get_voice(target_lang, "female")`: the target language's female voice when the language is listed, and always a known voice; `tvb` gives `+15%`/`+5Hz` and every other style `+0%`/`+0Hz` |
| TtsEngine.SegmentPath | src/tts_engine.py:79 | `output_dir` and `seg_{i:04d}.mp3` joined by exactly one `/` (none added when the directory is empty or already ends in `/`) |
| TtsEngine.SegmentPathInjective | src/tts_engine.py:79 | distinct indices give distinct `output_dir/seg_{i:04d}.mp3` paths |
| TtsEngine.RunJobs | src/tts_engine.py:70-82 | from job `i`: succeeds iff every job is skipped or synthesised; then entry `k` is `None` for a skipped job and the job's file otherwise; otherwise it reports the first failing job, all earlier jobs having been done |
| TtsEngine.Jobs | src/tts_engine.py:70-80 | one job per segment, in order: none for a blank text, otherwise a request for that segment's text and file |
| TtsEngine.Generate | src/tts_engine.py:70-84 | with a fixed voice and prosody and file naming: success iff every segment is skipped or synthesised; entry `k` is `None` iff text `k` is blank and is otherwise `name(k)`; a failure names a non-blank segment whose synthesis raised, with every earlier one done |
| TtsEngine.SynthesizedIsDone | src/tts_engine.py:79-80 | under the `seg_{k:04d}.mp3` naming, a segment counts as synthesised exactly when its job is done |
| TtsEngine.GenerateAudioSegments | src/tts_engine.py:44-84 | on success the list is as long as the segments, entry `i` is `None` iff text `i` is all whitespace, and otherwise it is `output_dir/seg_{i:04d}.mp3`; a failure names a non-blank segment whose synthesis raised |
| TtsEngine.GeneratedFilesDistinct | src/tts_engine.py:70-84 | any two non-`None` entries of the generated list differ |
| IndexFormat.ParseDigitsOfDigits | src/tts_engine.py:79 | reading back the decimal spelling of `n` gives `n` |
| IndexFormat.ParseIgnoresLeadingZeros | src/tts_engine.py:79 | zero padding does not change a numeral's value |
| IndexFormat.Format04 | src/tts_engine.py:79 | `{n:04d}` is all digits and at least four long; from 10000 on it is the plain decimal spelling, with no leading zero added |
| IndexFormat.Format04RoundTrip | src/tts_engine.py:79 | `{n:04d}` reads back as `n` |
| IndexFormat.Format04Injective | src/tts_engine.py:79 | `{i:04d}` is injective |
| IndexFormat.Format04Width | src/tts_engine.py:79 | below 10000 the padded index is exactly four characters |
| Text.LStrip | src/tts_engine.py:75 | `s.lstrip()` is a suffix of `s` whose dropped prefix is blank and whose first character is not whitespace |
| Text.RStrip | src/tts_engine.py:75 | `s.rstrip()` is a prefix of `s` whose dropped suffix is blank and whose last character is not whitespace |
| Text.StripTrimsBlankEnds | src/tts_engine.py:75 | `s.strip()` lies between a blank prefix and a blank suffix of `s`, and neither of its ends is whitespace |
| Text.StripIsSlice | src/tts_engine.py:75 | `s.strip()` is the slice of `s` that starts where `s.lstrip()` does |
| Text.StripEmptyIffBlank | src/tts_engine.py:75 | `text.strip()` is empty exactly when every character is Python whitespace |
| Paths.Join | src/tts_engine.py:79 | `os.path.join(a, b)` is `b` when `b` is absolute; otherwise it is `a`, then one `/` unless `a` is empty or already ends in `/`, then `b` |
| Text.BeforeFirst | src/tts_engine.py:37 | `s.split(c)[0]`: the longest prefix of `s` without `c`, ending where the first `c` stands or at the end |
| Text.Take | tiktok_client.py:93 | `s[:n]`: the first `n` characters, or all of `s` when it is shorter |
| Text.LStripChar | video_processor.py:40 | `s.lstrip(c)`: the suffix of `s` left after dropping every leading `c`, not starting with `c` |
| Paths.JoinCancel | src/tts_engine.py:79 | `os.path.join(d, a) == os.path.join(d, b)` forces `a == b` for relative names |
| Paths.SplitExt | video_processor.py:40 | `splitext` returns a root and extension that concatenate to the path; the extension is empty or one leading dot with no further dot or `/`; a non-empty extension follows a non-dot character of the last path component, and an empty one means every dot of that component is preceded by dots only |
| Paths.ExtensionIgnoresDirectory | video_processor.py:40 | the extension of `dir/name` is the extension of `name` |
| Paths.SplitExtLower | video_processor.py:40 | splitting a lower-cased path gives the lower-cased parts |
| Mixer.ClipIndices | src/mixer.py:29-32 | exactly the indices whose entry is not `None`, not empty and exists on disk, in increasing order |
| Mixer.SpeechTracks | src/mixer.py:29-40 | one clip per kept index, in index order, each placed at that segment's `start` |
| Mixer.OriginalLayer | src/mixer.py:17-25 | the original track scaled by 0.2 iff the mode is `voiceover` and the video has audio |
| Mixer.SpeechLayer | src/mixer.py:28-40 | no clip unless both lists are non-empty; otherwise the clips of the kept indices |
| Mixer.SilenceLength | src/mixer.py:50 | the silence length is the video's duration when that is positive and 1 second otherwise |
| Mixer.MixAudio | src/mixer.py:5-56 | fails iff both lists are non-empty and `audio_files` is shorter; otherwise the tracks are the original layer then the speech layer, silence iff no track, duration always the video's |
| Mixer.MixLayout | src/mixer.py:17-45 | position by position: the ducked original first when kept, then the clip of each kept index in order |
| Mixer.OriginalTrackIff | src/mixer.py:17-25 | the ducked original is present iff voiceover mode on a video with audio, only first and only at 0.2 |
| Mixer.ClipIncludedIff | src/mixer.py:28-32 | with at least as many entries as segments the mix succeeds, and segment `k`'s clip is in it iff its file name is non-empty and exists on disk |
| Mixer.SpeechTrackOrigin | src/mixer.py:27-40 | every speech track is the clip of a usable entry |
| Mixer.NoClipsWithoutSegmentsOrFiles | src/mixer.py:28 | with an empty segment list or file list the mix succeeds with no speech |
| Mixer.VoiceoverIsDubbingPlusOriginal | src/mixer.py:17-25 | the voiceover mix is the dubbing mix with the ducked original in front when the video has audio |
| Pipeline.ClipsKeepSourceTiming | src/mixer.py:29-40 | after translation and successful synthesis, with the written files on disk, segment `i`'s file is in the mix at the source segment's start iff its translated text is not blank |
| Config.ParseFlag | config.py:26 | `AUTO_CAPTION` is true iff the value is `true` in any letter case |
| Config.LoadConfig | config.py:13-26 | each variable that is set is taken as is (`AUTO_CAPTION` through the `true` test), each that is missing takes its default: empty credentials and user id, `public` privacy, auto caption on; the four formats always |
| Config.EmptyEnvironmentDefaults | config.py:13-26 | an empty environment gives exactly the default configuration |
| Config.EmptyEnvironmentMissesCredentials | config.py:13-41 | with an empty environment (and positive limits) the tool is not configured and validation reports exactly the three missing credentials |
| Config.IsConfigured | config.py:28-30 | configured iff none of the key, secret and token checks of `validate` fires |
| Config.ConfiguredIffNoCredentialError | config.py:28-41 | configured iff every finding of `validate` is past the credential checks |
| Config.IsConfiguredIgnoresUserId | config.py:28-30 | `is_configured` does not depend on the user id |
| Config.RunChecks | config.py:36-49 | running rank-ordered checks yields exactly the violated ones, still in rank order, none twice |
| Config.OrderedCons | config.py:36-49 | a finding of lower rank placed before ordered findings keeps the list in check order |
| Config.Validate | config.py:32-51 | exactly the violated checks, each once, in the order key, secret, token, size, duration, privacy (at most 6); empty iff credentials present, limits positive and privacy one of the three, compared case-sensitively |
| Config.ValidImpliesConfigured | config.py:28-41 | a configuration that validates is configured |
| Config.RankAtLeastPosition | config.py:32-51 | in a finding list in check order, the finding at position `j` is at least the `j`-th check |
| Config.CredentialFindingsSpelledOut | config.py:36-41 | ordered findings that are exactly the three credential checks are key, secret, token |
| Config.OnlyCredentialsMissing | config.py:36-49 | empty credentials with good limits and privacy: not configured, and exactly the three credential findings |
| Config.ValidationMessages | config.py:32-51 | `validate`'s list of strings: one message per finding, in check order, at most 6 |
| Config.MessageInjective | config.py:36-49 | no two checks share a message |
| Config.MessageReportedIff | config.py:36-49 | a check's message is in the returned list exactly when that check fails |
| Config.MessagesDetermineFindings | config.py:32-51 | equal message lists mean equal findings |
| Config.PrivacyIsCaseSensitive | config.py:48-49 | `Public` is reported as an invalid privacy |
| VideoProcessor.FileExtension | video_processor.py:40 | empty for a path without extension; otherwise the lower-cased `splitext` extension is a dot followed by the result; it contains neither `.` nor `/` |
| VideoProcessor.ExtensionIsCaseInsensitive | video_processor.py:40-42 | lower-casing the path does not change the extension that is checked |
| VideoProcessor.FindingsInOrder | video_processor.py:34-51 | at most one finding per check, ordered size, format, mime |
| VideoProcessor.ExistingFileFindings | video_processor.py:34-51 | at most 3 findings in order size, format, mime, each reported iff its condition holds and carrying the size and limit, the extension and formats, or the mime type |
| VideoProcessor.ValidateVideo | video_processor.py:17-53 | a missing file gives only the not-found error; otherwise at most 3 findings in order size, format, mime, each reported iff its condition holds and carrying the file's size and the limit, its extension and the formats, or its mime guess; valid iff no error |
| VideoProcessor.GetVideoInfo | video_processor.py:55-89 | defaults (size 0, format `unknown`) for a missing file; otherwise size in MiB and the format is the extension validation checks; duration, width, height and aspect ratio are 0 |
| VideoProcessor.InfoFormatMatchesValidation | video_processor.py:83-84 | the reported format is unsupported iff validation reports a format error |
| VideoProcessor.ThumbnailPath | video_processor.py:104-106 | an explicit path verbatim, else the `splitext` root plus `_thumbnail.jpg` |
| VideoProcessor.DefaultThumbnailIsNotTheVideo | video_processor.py:104-106 | the default thumbnail path never equals the video path |
| VideoProcessor.CreateThumbnail | video_processor.py:91-118 | returns the thumbnail path iff saving succeeds, otherwise an error naming that path |
| TikTokClient.NewUploader | tiktok_client.py:18-30 | an uploader exists iff the configuration validates; a refusal carries the errors |
| TikTokClient.CalculateChunks | tiktok_client.py:139-142 | the ceiling of size over chunk size: the least `n` with `n * chunk >= size`, 0 iff the file is empty |
| TikTokClient.CeilingIsUnique | tiktok_client.py:139-142 | any count meeting the two ceiling bounds is the computed count |
| TikTokClient.CalculateChunksStep | tiktok_client.py:139-142 | removing one full chunk lowers the count by one |
| TikTokClient.Chunks | tiktok_client.py:144-170 | non-empty chunks of at most 10 MiB, all but the last full, as many as `_calculate_chunks` declares, and together the file |
| TikTokClient.ChunkIsRead | tiktok_client.py:148-153 | chunk `k` is what `f.read(chunk_size)` returns at offset `k * chunk_size` |
| TikTokClient.InitPayloadFor | tiktok_client.py:90-106 | title is the first 100 caption characters (the whole caption when shorter), privacy is the given or default level upper-cased, the duet/comment/stitch switches pass through, the cover timestamp is 1000 ms and the source `FILE_UPLOAD`, and size and chunk count match the file |
| TikTokClient.SendChunks | tiktok_client.py:144-170 | requests chunks in order numbered from 1, stopping right after the first reply that is not `ok`; it finishes iff every reply is `ok` |
| TikTokClient.Transfer | tiktok_client.py:109-133 | the first request is always the init request for the given payload |
| TikTokClient.TransferOutcome | tiktok_client.py:120-133 | a successful transfer returns the commit reply after the full init, chunks, commit sequence; a rejected commit also comes after that full sequence |
| TikTokClient.UploadVideo | tiktok_client.py:62-133 | an invalid video gives the validation errors and no request; otherwise the init request comes first and the run is the transfer of the payload and the file's 10 MiB chunks, so it succeeds iff every reply is `ok` |
| TikTokClient.UploadFollowsProtocol | tiktok_client.py:90-130 | the requests are an initial part of init, chunks 1..n, commit |
| TikTokClient.TransferFollowsProtocol | tiktok_client.py:109-130 | for any chunk list, the transfer's requests are an initial part of init, chunks 1..n, commit |
| TikTokClient.TransferChunkFailure | tiktok_client.py:148-170 | when a transfer ends with a chunk failure, the rejected chunk is its last request, numbered within the chunk count; every earlier reply was `ok`, and nothing is committed |
| TikTokClient.TransferStopsAtFirstRejectedChunk | tiktok_client.py:109-170 | with the init accepted and chunk `k + 1` the first rejected one, the transfer is exactly init and chunks 1 to `k + 1`, and it fails naming chunk `k + 1` without committing |
| TikTokClient.TransferCommitMeansEveryChunkOk | tiktok_client.py:109-130 | a transfer that sends the commit had its init and every chunk accepted |
| TikTokClient.TransferSucceedsIff | tiktok_client.py:109-133 | a transfer succeeds iff the init, every chunk and the commit reply `ok` |
| TikTokClient.InitFailureStopsUpload | tiktok_client.py:109-112 | a rejected init is the only request made |
| TikTokClient.ChunkFailureStopsUpload | tiktok_client.py:166-170 | when an upload ends with a chunk failure, the rejected chunk is its last request, within the declared count; every earlier reply was `ok`, and nothing is committed |
| TikTokClient.RejectedChunkStopsUpload | tiktok_client.py:109-170 | for a valid file with the init accepted, the first rejected chunk `k + 1` ends the upload: the requests are init and chunks 1 to `k + 1`, and the outcome names chunk `k + 1`, with no commit |
| TikTokClient.UploadCommitMeansEveryChunkOk | tiktok_client.py:109-130 | an upload of a valid file that sends the commit had its init and every chunk accepted |
| TikTokClient.TransferCommitFollowsEveryChunk | tiktok_client.py:120-130 | for any chunk list, a commit is the last request and comes right after chunk `k` numbered `k` carrying the `k`-th chunk, for every `k` |
| TikTokClient.CommitFollowsEveryChunk | tiktok_client.py:120-130 | a commit comes after chunks numbered 1 to the declared `total_chunk_count`, each the next read of the file |
| TikTokClient.VideoListCount | tiktok_client.py:198 | `max_count` is never above 20 and equals the request when that is at most 20 |

## Left out

- Transcription (`src/transcriber.py`) is a thin wrapper around the speech-to-text engine. Its only local step maps `"auto"` to `None`.
- `app.py`, `main.py` and `examples.py` are chat-bot, CLI and printing glue around the core. They are not modelled.
- The external engines (Edge-TTS, the translation service, moviepy) are oracles. Decoding, sample mixing and encoding are not modelled. The 0.2 volume is a tag, not arithmetic.
- Logging, `print`, `os.makedirs` and the final `write_videofile` are side effects with no decision logic. They are not modelled.
- The `asyncio` loop in synthesis awaits each call in turn, so it is modelled as a sequential loop.
- Times and durations are `real` values, not IEEE floats.
- Config.LoadConfig: takes `MAX_VIDEO_SIZE_MB` and `MAX_DURATION_SECONDS` already parsed, because `int()` parsing and `.env` loading are left out.
- VideoProcessor.FileExtension: lower-cases ASCII letters only, not all of Unicode. The accept/reject result for the four ASCII formats is the same. The returned `format` can differ for non-ASCII extensions.
- Config.ParseFlag: lower-cases ASCII letters only. This gives the same result as Python for the word `true`.
- TikTokClient.InitPayloadFor: upper-cases ASCII letters only, so a non-ASCII privacy value is passed through unchanged.
- Paths.SplitExt: uses POSIX path rules (`/` only). The Windows separator rules are not modelled.
- VideoProcessor.ValidateVideo: errors carry their values (size, limit, extension, mime), not the formatted message text such as `{size:.2f}MB`. The float comparison `size / 2**20 > max` is modelled as the exact integer test `size > max * 2**20`. Division by a power of two is exact, so the two agree.
- The mime guess is a parameter. A guess that raises is treated as no guess, which is how the source ignores it.
- Thumbnail image creation (PIL) is reduced to a saved or not-saved flag.
- VideoProcessor.CreateThumbnail: the error carries the thumbnail path, not the text of the exception that caused it, because PIL's exceptions are not modelled.
- HTTP details are not modelled: headers, the base URL and JSON decoding. A transport error and a reply whose `error.code` is not `ok` are both a reply that is not `ok`. A missing `data` key in the init reply is not modelled.
- `get_upload_status` and `get_user_info` each make one request and contain no logic.
- `max_duration_seconds` is loaded and validated, but the source never compares a video against it.

=== FILE: common.dfy ===
/** Small shared vocabulary: optional values, success/failure results and bytes. */
module Common {

  /** Python's `None`-or-value, used wherever the source may hold `None`. */
  datatype Option<+T> = None | Some(value: T) {

    /** The wrapped value, or `default` when absent (Python's `x if x is not None else d`). */
    function GetOr(default: T): T {
      match this
      case Some(v) => v
      case None => default
    }
  }

  /** The value of an operation that either returns or raises. */
  datatype Result<+T, +E> = Success(value: T) | Failure(error: E)

  /** One octet of a file read in binary mode. */
  newtype byte = b: int | 0 <= b < 256
}

=== FILE: config.dfy ===
/** The upload tool's settings and their validation. */
module Config {
  import opened Common
  import opened Text

  /** The video file extensions the tool accepts. */
  const SupportedFormats: seq<string> := ["mp4", "mov", "avi", "webm"]

  /** The privacy levels the service accepts. */
  const PrivacyLevels: seq<string> := ["public", "private", "friends"]

  /** `TikTokConfig`: credentials, limits and posting defaults. */
  datatype TikTokConfig = TikTokConfig(
    apiKey: string,
    apiSecret: string,
    accessToken: string,
    userId: string,
    maxVideoSizeMb: int,
    supportedFormats: seq<string>,
    maxDurationSeconds: int,
    defaultPrivacy: string,
    autoCaption: bool)

  /** `os.getenv(name, default)` over a snapshot of the environment. */
  function GetEnv(env: map<string, string>, name: string, default: string): string {
    if name in env then env[name] else default
  }

  /** `value.lower() == 'true'`. */
  function ParseFlag(value: string): (r: bool)
    ensures r <==> |value| == 4 && LowerChar(value[0]) == 't' && LowerChar(value[1]) == 'r'
                   && LowerChar(value[2]) == 'u' && LowerChar(value[3]) == 'e'
  {
    var l := Lower(value);
    assert |l| == 4 && l[0] == 't' && l[1] == 'r' && l[2] == 'u' && l[3] == 'e' ==> l == "true";
    l == "true"
  }

  /**
    `TikTokConfig()`: every setting read from the environment with its default.
    The two integer limits arrive already parsed (see `int()` under Left out).
   */
  function LoadConfig(env: map<string, string>, maxVideoSizeMb: int, maxDurationSeconds: int): (c: TikTokConfig)
    ensures "TIKTOK_API_KEY" in env ==> c.apiKey == env["TIKTOK_API_KEY"]
    ensures "TIKTOK_API_KEY" !in env ==> c.apiKey == ""
    ensures "TIKTOK_API_SECRET" in env ==> c.apiSecret == env["TIKTOK_API_SECRET"]
    ensures "TIKTOK_API_SECRET" !in env ==> c.apiSecret == ""
    ensures "TIKTOK_ACCESS_TOKEN" in env ==> c.accessToken == env["TIKTOK_ACCESS_TOKEN"]
    ensures "TIKTOK_ACCESS_TOKEN" !in env ==> c.accessToken == ""
    ensures "TIKTOK_USER_ID" in env ==> c.userId == env["TIKTOK_USER_ID"]
    ensures "TIKTOK_USER_ID" !in env ==> c.userId == ""
    ensures c.maxVideoSizeMb == maxVideoSizeMb && c.maxDurationSeconds == maxDurationSeconds
    ensures c.supportedFormats == SupportedFormats
    ensures "DEFAULT_PRIVACY" in env ==> c.defaultPrivacy == env["DEFAULT_PRIVACY"]
    ensures "DEFAULT_PRIVACY" !in env ==> c.defaultPrivacy == "public"
    ensures "AUTO_CAPTION" in env ==> c.autoCaption == ParseFlag(env["AUTO_CAPTION"])
    ensures "AUTO_CAPTION" !in env ==> c.autoCaption
  {
    TikTokConfig(
      GetEnv(env, "TIKTOK_API_KEY", ""),
      GetEnv(env, "TIKTOK_API_SECRET", ""),
      GetEnv(env, "TIKTOK_ACCESS_TOKEN", ""),
      GetEnv(env, "TIKTOK_USER_ID", ""),
      maxVideoSizeMb,
      SupportedFormats,
      maxDurationSeconds,
      GetEnv(env, "DEFAULT_PRIVACY", "public"),
      ParseFlag(GetEnv(env, "AUTO_CAPTION", "true")))
  }

  /** With no setting in the environment every field takes its default. */
  lemma EmptyEnvironmentDefaults(maxVideoSizeMb: int, maxDurationSeconds: int)
    ensures LoadConfig(map[], maxVideoSizeMb, maxDurationSeconds)
            == TikTokConfig("", "", "", "", maxVideoSizeMb, SupportedFormats, maxDurationSeconds, "public", true)
  {
  }

  /** In a list in check order, the finding at position `j` has rank at least `j`. */
  lemma {:induction false} RankAtLeastPosition(errs: seq<ConfigError>, j: nat)
    requires InCheckOrder(errs) && j < |errs|
    ensures errs[j].Rank() >= j
  {
    if j > 0 {
      RankAtLeastPosition(errs, j - 1);
    }
  }

  /** A list in check order holding the three credential findings and nothing else is exactly those three. */
  lemma CredentialFindingsSpelledOut(errs: seq<ConfigError>)
    requires InCheckOrder(errs)
    requires MissingApiKey in errs && MissingApiSecret in errs && MissingAccessToken in errs
    requires forall e :: e in errs ==> e.Rank() < 3
    ensures errs == [MissingApiKey, MissingApiSecret, MissingAccessToken]
  {
    var i0 :| 0 <= i0 < |errs| && errs[i0] == MissingApiKey;
    var i1 :| 0 <= i1 < |errs| && errs[i1] == MissingApiSecret;
    var i2 :| 0 <= i2 < |errs| && errs[i2] == MissingAccessToken;
    RankAtLeastPosition(errs, i0);
    RankAtLeastPosition(errs, i1);
    RankAtLeastPosition(errs, i2);
    var last := |errs| - 1;
    RankAtLeastPosition(errs, last);
    assert errs[last] in errs;
  }

  /**
    A configuration lacking all three credentials but otherwise valid gets
    exactly the three credential findings from `validate`, in order.
   */
  lemma OnlyCredentialsMissing(c: TikTokConfig)
    requires c.apiKey == "" && c.apiSecret == "" && c.accessToken == ""
    requires c.maxVideoSizeMb > 0 && c.maxDurationSeconds > 0 && c.defaultPrivacy in PrivacyLevels
    ensures !IsConfigured(c)
    ensures Validate(c) == [MissingApiKey, MissingApiSecret, MissingAccessToken]
  {
    var errs := Validate(c);
    assert Violated(c, MissingApiKey) && Violated(c, MissingApiSecret) && Violated(c, MissingAccessToken);
    assert forall e :: e in errs ==> e.Rank() < 3 by {
      forall e | e in errs
        ensures e.Rank() < 3
      {
        assert Violated(c, e);
      }
    }
    CredentialFindingsSpelledOut(errs);
  }

  /**
    With no setting in the environment and positive limits, `validate` reports
    exactly the three missing credentials: every other default is valid.
   */
  lemma EmptyEnvironmentMissesCredentials(maxVideoSizeMb: int, maxDurationSeconds: int)
    requires maxVideoSizeMb > 0 && maxDurationSeconds > 0
    ensures var c := LoadConfig(map[], maxVideoSizeMb, maxDurationSeconds);
            && !IsConfigured(c)
            && Validate(c) == [MissingApiKey, MissingApiSecret, MissingAccessToken]
  {
    EmptyEnvironmentDefaults(maxVideoSizeMb, maxDurationSeconds);
    OnlyCredentialsMissing(LoadConfig(map[], maxVideoSizeMb, maxDurationSeconds));
  }

  /** `is_configured`: the three credentials are all present, so none of the credential checks of `validate` fires. */
  predicate IsConfigured(c: TikTokConfig)
    ensures IsConfigured(c) <==> !Violated(c, MissingApiKey) && !Violated(c, MissingApiSecret) && !Violated(c, MissingAccessToken)
  {
    c.apiKey != "" && c.apiSecret != "" && c.accessToken != ""
  }

  /** The user id plays no part in `is_configured`. */
  lemma IsConfiguredIgnoresUserId(c: TikTokConfig, userId: string)
    ensures IsConfigured(c.(userId := userId)) == IsConfigured(c)
  {
  }

  /** One finding of `validate`, in the order it checks them. */
  datatype ConfigError =
    | MissingApiKey
    | MissingApiSecret
    | MissingAccessToken
    | NonPositiveMaxSize
    | NonPositiveMaxDuration
    | InvalidPrivacy
  {
    /** The message `validate` appends. */
    function Message(): string {
      match this
      case MissingApiKey => "TIKTOK_API_KEY is required"
      case MissingApiSecret => "TIKTOK_API_SECRET is required"
      case MissingAccessToken => "TIKTOK_ACCESS_TOKEN is required"
      case NonPositiveMaxSize => "MAX_VIDEO_SIZE_MB must be positive"
      case NonPositiveMaxDuration => "MAX_DURATION_SECONDS must be positive"
      case InvalidPrivacy => "DEFAULT_PRIVACY must be one of: public, private, friends"
    }

    /** The position of the check that reports it. */
    function Rank(): nat {
      match this
      case MissingApiKey => 0
      case MissingApiSecret => 1
      case MissingAccessToken => 2
      case NonPositiveMaxSize => 3
      case NonPositiveMaxDuration => 4
      case InvalidPrivacy => 5
    }
  }

  /** `errs` lists findings in check order, each at most once. */
  predicate InCheckOrder(errs: seq<ConfigError>) {
    forall a, b :: 0 <= a < b < |errs| ==> errs[a].Rank() < errs[b].Rank()
  }

  /** A finding is reported when its condition holds. */
  predicate Violated(c: TikTokConfig, e: ConfigError) {
    match e
    case MissingApiKey => c.apiKey == ""
    case MissingApiSecret => c.apiSecret == ""
    case MissingAccessToken => c.accessToken == ""
    case NonPositiveMaxSize => c.maxVideoSizeMb <= 0
    case NonPositiveMaxDuration => c.maxDurationSeconds <= 0
    case InvalidPrivacy => c.defaultPrivacy !in PrivacyLevels
  }

  /** `[e]` when its condition holds, else nothing. */
  function Check(c: TikTokConfig, e: ConfigError): seq<ConfigError> {
    if Violated(c, e) then [e] else []
  }

  /** The checks of `validate`, in the order it runs them. */
  const CheckOrder: seq<ConfigError> :=
    [MissingApiKey, MissingApiSecret, MissingAccessToken, NonPositiveMaxSize, NonPositiveMaxDuration, InvalidPrivacy]

  /** The findings of `checks`, run in order: the violated ones, in the same order. */
  function RunChecks(c: TikTokConfig, checks: seq<ConfigError>): (errs: seq<ConfigError>)
    requires InCheckOrder(checks)
    ensures forall e :: e in errs <==> e in checks && Violated(c, e)
    ensures InCheckOrder(errs)
    ensures |errs| <= |checks|
  {
    if checks == [] then []
    else
      var rest := RunChecks(c, checks[1..]);
      assert forall e :: e in rest ==> checks[0].Rank() < e.Rank() by {
        forall e | e in rest
          ensures checks[0].Rank() < e.Rank()
        {
          var j :| 0 <= j < |checks[1..]| && checks[1..][j] == e;
          assert checks[j + 1] == e;
        }
      }
      if Violated(c, checks[0]) then
        OrderedCons(checks[0], rest);
        [checks[0]] + rest
      else
        rest
  }

  /** A finding placed before later-ranked, ordered findings keeps them in order. */
  lemma OrderedCons(e: ConfigError, rest: seq<ConfigError>)
    requires InCheckOrder(rest)
    requires forall x :: x in rest ==> e.Rank() < x.Rank()
    ensures InCheckOrder([e] + rest)
  {
    var r := [e] + rest;
    forall a, b | 0 <= a < b < |r|
      ensures r[a].Rank() < r[b].Rank()
    {
      assert r[b] == rest[b - 1];
      if a == 0 {
        assert rest[b - 1] in rest;
      } else {
        assert r[a] == rest[a - 1];
      }
    }
  }

  /** Each finding sits at its own rank in `CheckOrder`. */
  lemma RankIdentifies(e: ConfigError)
    ensures e.Rank() < |CheckOrder| && CheckOrder[e.Rank()] == e
  {
  }

  /**
    `validate`: exactly the violated checks, in check order, each once; empty
    exactly when the credentials are present, both limits positive and the
    default privacy one of the three levels (compared case-sensitively).
   */
  function Validate(c: TikTokConfig): (errs: seq<ConfigError>)
    ensures forall e :: e in errs <==> Violated(c, e)
    ensures InCheckOrder(errs)
    ensures |errs| <= 6
    ensures errs == [] <==> IsConfigured(c) && c.maxVideoSizeMb > 0 && c.maxDurationSeconds > 0
                            && c.defaultPrivacy in ["public", "private", "friends"]
  {
    assert forall e: ConfigError :: e in CheckOrder by {
      forall e: ConfigError
        ensures e in CheckOrder
      {
        RankIdentifies(e);
      }
    }
    var errs := RunChecks(c, CheckOrder);
    NoViolationIff(c);
    assert errs != [] ==> errs[0] in errs;
    errs
  }

  /** No check fails exactly when every condition `validate` tests holds. */
  lemma NoViolationIff(c: TikTokConfig)
    ensures (forall e :: !Violated(c, e))
            <==> IsConfigured(c) && c.maxVideoSizeMb > 0 && c.maxDurationSeconds > 0
                 && c.defaultPrivacy in ["public", "private", "friends"]
  {
    if IsConfigured(c) && c.maxVideoSizeMb > 0 && c.maxDurationSeconds > 0 && c.defaultPrivacy in PrivacyLevels {
      forall e ensures !Violated(c, e) {
      }
    } else {
      assert || Violated(c, MissingApiKey) || Violated(c, MissingApiSecret) || Violated(c, MissingAccessToken)
             || Violated(c, NonPositiveMaxSize) || Violated(c, NonPositiveMaxDuration) || Violated(c, InvalidPrivacy);
    }
  }

  /** `is_configured` holds exactly when `validate` reports no missing credential. */
  lemma ConfiguredIffNoCredentialError(c: TikTokConfig)
    ensures IsConfigured(c) <==> forall e :: e in Validate(c) ==> e.Rank() >= 3
  {
    var errs := Validate(c);
    if IsConfigured(c) {
      forall e | e in errs
        ensures e.Rank() >= 3
      {
        assert Violated(c, e);
      }
    }
  }

  /** A configuration that validates is configured. */
  lemma ValidImpliesConfigured(c: TikTokConfig)
    requires Validate(c) == []
    ensures IsConfigured(c)
  {
  }

  /** Privacy is matched exactly: an upper-case spelling of a valid level is rejected. */
  lemma PrivacyIsCaseSensitive(c: TikTokConfig)
    requires c.defaultPrivacy == "Public"
    ensures InvalidPrivacy in Validate(c)
  {
    assert forall p :: p in PrivacyLevels ==> p[0] == 'p' || p[0] == 'f';
    assert Violated(c, InvalidPrivacy);
  }

  /** `validate`'s return value: the message of each finding, in check order. */
  function ValidationMessages(c: TikTokConfig): (msgs: seq<string>)
    ensures |msgs| == |Validate(c)| <= 6
    ensures forall i :: 0 <= i < |msgs| ==> msgs[i] == Validate(c)[i].Message()
  {
    var errs := Validate(c);
    seq(|errs|, i requires 0 <= i < |errs| => errs[i].Message())
  }

  /** No two findings share a message. */
  lemma MessageInjective(a: ConfigError, b: ConfigError)
    requires a.Message() == b.Message()
    ensures a == b
  {
  }

  /** A finding's message is in the returned list exactly when its check fails. */
  lemma MessageReportedIff(c: TikTokConfig, e: ConfigError)
    ensures e.Message() in ValidationMessages(c) <==> Violated(c, e)
  {
    var errs := Validate(c);
    var msgs := ValidationMessages(c);
    if Violated(c, e) {
      var i :| 0 <= i < |errs| && errs[i] == e;
      assert msgs[i] == e.Message();
    }
    if e.Message() in msgs {
      var i :| 0 <= i < |msgs| && msgs[i] == e.Message();
      MessageInjective(errs[i], e);
      assert errs[i] in errs;
    }
  }

  /** The returned messages determine the findings: equal message lists mean equal findings. */
  lemma MessagesDetermineFindings(c1: TikTokConfig, c2: TikTokConfig)
    requires ValidationMessages(c1) == ValidationMessages(c2)
    ensures Validate(c1) == Validate(c2)
  {
    var e1 := Validate(c1);
    var e2 := Validate(c2);
    forall i | 0 <= i < |e1|
      ensures e1[i] == e2[i]
    {
      MessageInjective(e1[i], e2[i]);
    }
  }
}

=== FILE: index_format.dfy ===
/**
  Python's `f"{i:04d}"` for a non-negative index: its decimal digits, padded on
  the left with zeros to a width of at least four, and the parse that inverts it.
 */
module IndexFormat {

  predicate IsDigit(c: char) {
    '0' <= c <= '9'
  }

  predicate AllDigits(s: string) {
    forall i :: 0 <= i < |s| ==> IsDigit(s[i])
  }

  function DigitChar(d: nat): (c: char)
    requires d < 10
    ensures IsDigit(c)
  {
    ('0' as int + d) as char
  }

  function DigitValue(c: char): (d: nat)
    requires IsDigit(c)
    ensures d < 10
  {
    c as int - '0' as int
  }

  /** `str(n)`: the shortest decimal spelling of `n`. */
  function Digits(n: nat): (r: string)
    ensures 1 <= |r|
    ensures AllDigits(r)
    decreases n
  {
    if n < 10 then [DigitChar(n)] else Digits(n / 10) + [DigitChar(n % 10)]
  }

  /** `k` copies of the character '0'. */
  function Zeros(k: nat): (r: string)
    ensures |r| == k
    ensures AllDigits(r)
  {
    seq(k, _ => '0')
  }

  /** Each further decimal place adds one digit. */
  lemma DigitsGrow(n: nat)
    requires n >= 10
    ensures |Digits(n)| == |Digits(n / 10)| + 1
  {
  }

  /** From 10000 on, the decimal spelling has at least five digits. */
  lemma DigitsOfLarge(n: nat)
    ensures 10000 <= n ==> 5 <= |Digits(n)|
  {
    if 10000 <= n {
      DigitsGrow(n);
      DigitsGrow(n / 10);
      DigitsGrow(n / 10 / 10);
      DigitsGrow(n / 10 / 10 / 10);
    }
  }

  /** `f"{n:04d}"`: zero-padded to four digits, and unpadded from 10000 on. */
  function Format04(n: nat): (r: string)
    ensures AllDigits(r)
    ensures 4 <= |r|
    ensures 10000 <= n ==> r == Digits(n)
  {
    DigitsOfLarge(n);
    var d := Digits(n);
    if |d| >= 4 then d else Zeros(4 - |d|) + d
  }

  /** The value of a decimal numeral, leading zeros allowed. */
  function ParseDigits(s: string): nat
    requires AllDigits(s)
    decreases |s|
  {
    if s == [] then 0 else ParseDigits(s[..|s| - 1]) * 10 + DigitValue(s[|s| - 1])
  }

  /** Parsing the decimal spelling of `n` gives back `n`. */
  lemma {:induction false} ParseDigitsOfDigits(n: nat)
    ensures ParseDigits(Digits(n)) == n
    decreases n
  {
    var d := Digits(n);
    if n >= 10 {
      ParseDigitsOfDigits(n / 10);
      assert d[..|d| - 1] == Digits(n / 10);
    }
  }

  /** Leading zeros do not change the value of a numeral. */
  lemma {:induction false} ParseIgnoresLeadingZeros(k: nat, s: string)
    requires AllDigits(s)
    ensures ParseDigits(Zeros(k) + s) == ParseDigits(s)
    decreases |s| + k
  {
    var z := Zeros(k) + s;
    if s == [] {
      if k > 0 {
        assert z[..|z| - 1] == Zeros(k - 1) + [];
        ParseIgnoresLeadingZeros(k - 1, []);
      } else {
        assert z == [];
      }
    } else {
      assert z[..|z| - 1] == Zeros(k) + s[..|s| - 1];
      ParseIgnoresLeadingZeros(k, s[..|s| - 1]);
    }
  }

  /** `f"{n:04d}"` is read back as `n`: the padded format loses nothing. */
  lemma Format04RoundTrip(n: nat)
    ensures ParseDigits(Format04(n)) == n
  {
    var d := Digits(n);
    ParseDigitsOfDigits(n);
    if |d| < 4 {
      ParseIgnoresLeadingZeros(4 - |d|, d);
    }
  }

  /** Different indices are formatted differently. */
  lemma Format04Injective(i: nat, j: nat)
    requires Format04(i) == Format04(j)
    ensures i == j
  {
    Format04RoundTrip(i);
    Format04RoundTrip(j);
  }

  /** Below 10000 the formatted index is exactly four characters wide. */
  lemma {:induction false} Format04Width(n: nat)
    requires n < 10000
    ensures |Format04(n)| == 4
  {
    assert |Digits(n)| <= 4 by {
      if n >= 10 {
        if n >= 100 {
          if n >= 1000 {
            assert |Digits(n / 1000)| == 1;
            assert |Digits(n / 100)| == 2;
            assert |Digits(n / 10)| == 3;
          } else {
            assert |Digits(n / 100)| == 1;
            assert |Digits(n / 10)| == 2;
          }
        } else {
          assert |Digits(n / 10)| == 1;
        }
      }
    }
  }
}

=== FILE: mixer.dfy ===
/**
  The compositor, as a mix plan: which audio tracks enter the final mix, where
  each speech clip starts, the silent fallback and the final duration. Decoding,
  sample mixing and encoding are the media library's business and are not modelled.
 */
module Mixer {
  import opened Common
  import opened Segments

  /** The mode that keeps the original audio, ducked. */
  const Voiceover := "voiceover"

  /** The scale applied to the original audio in voiceover mode (an opaque tag here, not arithmetic). */
  const VoiceoverVolume: real := 0.2

  /** The sample rate of the generated silent track. */
  const SilenceFps: nat := 44100

  /** What the compositor needs to know of the opened video. */
  datatype Video = Video(duration: real, hasAudio: bool)

  /** One layer of the composite audio. */
  datatype Track =
    | OriginalAudio(volume: real)
    | Speech(file: string, start: real)

  /** The audio before it is cut to the video's duration. */
  datatype AudioSource =
    | Composite(tracks: seq<Track>)
    | Silence(length: real, fps: nat)

  /** The final audio: its source, the duration it is set to, and the file written. */
  datatype MixPlan = MixPlan(audio: AudioSource, duration: real, output: string) {

    /** The layers of the mix; a silent track has none. */
    function Tracks(): seq<Track> {
      match audio
      case Composite(tracks) => tracks
      case Silence(_, _) => []
    }
  }

  /** `audio_files[i]` indexed past the end of a shorter list. */
  datatype MixError = AudioIndexOutOfRange(index: nat)

  /** `os.path.exists`, as an oracle. */
  type FileExists = string -> bool

  /** An entry of `audio_files` that is kept: not `None`, not "", and present on disk. */
  predicate Usable(file: Option<string>, onDisk: FileExists) {
    file.Some? && file.value != "" && onDisk(file.value)
  }

  /** The indices in `[i, n)` whose audio entry is usable, in increasing order. */
  function ClipIndices(files: seq<Option<string>>, onDisk: FileExists, i: nat, n: nat): (r: seq<nat>)
    requires i <= n <= |files|
    ensures forall j :: 0 <= j < |r| ==> i <= r[j] < n && Usable(files[r[j]], onDisk)
    ensures forall k :: i <= k < n && Usable(files[k], onDisk) ==> k in r
    ensures forall a, b :: 0 <= a < b < |r| ==> r[a] < r[b]
    decreases n - i
  {
    if i == n then []
    else if Usable(files[i], onDisk) then [i] + ClipIndices(files, onDisk, i + 1, n)
    else ClipIndices(files, onDisk, i + 1, n)
  }

  /** The speech clip of segment `k`: its audio file, starting at the segment's start. */
  function SpeechClip(segs: seq<Segment>, files: seq<Option<string>>, k: nat): Track
    requires k < |segs| <= |files| && files[k].Some?
  {
    Speech(files[k].value, segs[k].start)
  }

  /** The loop over `enumerate(segments)` from index `i`, skipping unusable entries. */
  function SpeechTracks(segs: seq<Segment>, files: seq<Option<string>>, onDisk: FileExists, i: nat): (r: seq<Track>)
    requires i <= |segs| <= |files|
    ensures var idx := ClipIndices(files, onDisk, i, |segs|);
            |r| == |idx| && forall j :: 0 <= j < |r| ==> r[j] == SpeechClip(segs, files, idx[j])
    decreases |segs| - i
  {
    if i == |segs| then []
    else if Usable(files[i], onDisk) then
      var rest := SpeechTracks(segs, files, onDisk, i + 1);
      ClipsCons(segs, files, onDisk, i, rest);
      [SpeechClip(segs, files, i)] + rest
    else
      SpeechTracks(segs, files, onDisk, i + 1)
  }

  /** A usable entry `i` puts its clip in front of the clips of the later indices. */
  lemma ClipsCons(segs: seq<Segment>, files: seq<Option<string>>, onDisk: FileExists, i: nat, rest: seq<Track>)
    requires i < |segs| <= |files| && Usable(files[i], onDisk)
    requires var later := ClipIndices(files, onDisk, i + 1, |segs|);
             |rest| == |later| && forall j :: 0 <= j < |rest| ==> rest[j] == SpeechClip(segs, files, later[j])
    ensures var idx := ClipIndices(files, onDisk, i, |segs|);
            var r := [SpeechClip(segs, files, i)] + rest;
            |r| == |idx| && forall j :: 0 <= j < |r| ==> r[j] == SpeechClip(segs, files, idx[j])
  {
    var later := ClipIndices(files, onDisk, i + 1, |segs|);
    var idx := ClipIndices(files, onDisk, i, |segs|);
    assert idx == [i] + later;
    var r := [SpeechClip(segs, files, i)] + rest;
    forall j | 0 <= j < |r|
      ensures r[j] == SpeechClip(segs, files, idx[j])
    {
      if j > 0 {
        assert r[j] == rest[j - 1] && idx[j] == later[j - 1];
      }
    }
  }

  /** The segment indices whose clip enters the mix: none unless both lists are non-empty. */
  function UsedClipIndices(segs: seq<Segment>, files: seq<Option<string>>, onDisk: FileExists): (r: seq<nat>)
    requires |segs| <= |files| || |segs| == 0 || |files| == 0
    ensures forall j :: 0 <= j < |r| ==> r[j] < |segs| <= |files| && Usable(files[r[j]], onDisk)
  {
    if |segs| > 0 && |files| > 0 then ClipIndices(files, onDisk, 0, |segs|) else []
  }

  /** Whether the ducked original track is part of the mix. */
  predicate KeepsOriginal(video: Video, mode: string) {
    mode == Voiceover && video.hasAudio
  }

  /** The ducked original, as the first layer, or nothing. */
  function OriginalLayer(video: Video, mode: string): (r: seq<Track>)
    ensures KeepsOriginal(video, mode) ==> r == [OriginalAudio(VoiceoverVolume)]
    ensures !KeepsOriginal(video, mode) ==> r == []
  {
    if KeepsOriginal(video, mode) then [OriginalAudio(VoiceoverVolume)] else []
  }

  /** The speech clips, guarded by `if segments and audio_files`. */
  function SpeechLayer(segs: seq<Segment>, files: seq<Option<string>>, onDisk: FileExists): (r: seq<Track>)
    requires |segs| <= |files| || |segs| == 0 || |files| == 0
    ensures var idx := UsedClipIndices(segs, files, onDisk);
            |r| == |idx| && forall j :: 0 <= j < |r| ==> r[j] == SpeechClip(segs, files, idx[j])
  {
    if |segs| > 0 && |files| > 0 then SpeechTracks(segs, files, onDisk, 0) else []
  }

  /** The length of the fallback silence: the video's duration if positive, else one second. */
  function SilenceLength(video: Video): (d: real)
    ensures d > 0.0
    ensures video.duration > 0.0 ==> d == video.duration
    ensures video.duration <= 0.0 ==> d == 1.0
  {
    if video.duration > 0.0 then video.duration else 1.0
  }

  /**
    `mix_audio`: fails when a non-empty `audio_files` is shorter than a
    non-empty `segments`; otherwise the mix holds the ducked original (in
    voiceover mode, if the video has audio) followed by one clip per usable
    entry, in segment order, each at its segment's start, or a silent track
    when that leaves nothing; the duration is always the video's.
   */
  function MixAudio(video: Video, segs: seq<Segment>, files: seq<Option<string>>, onDisk: FileExists, outputPath: string, mode: string): (r: Result<MixPlan, MixError>)
    ensures r.Failure? <==> |segs| > 0 && |files| > 0 && |files| < |segs|
    ensures r.Failure? ==> r.error == AudioIndexOutOfRange(|files|)
    ensures r.Success? ==> r.value.duration == video.duration && r.value.output == outputPath
    ensures r.Success? ==> r.value.Tracks() == OriginalLayer(video, mode) + SpeechLayer(segs, files, onDisk)
    ensures r.Success? ==> (r.value.audio.Silence? <==> r.value.Tracks() == [])
    ensures r.Success? && r.value.audio.Silence? ==> r.value.audio == Silence(SilenceLength(video), SilenceFps)
  {
    if |segs| > 0 && |files| > 0 && |files| < |segs| then
      Failure(AudioIndexOutOfRange(|files|))
    else
      var original := OriginalLayer(video, mode);
      var speech := SpeechLayer(segs, files, onDisk);
      var clips := original + speech;
      var audio := if clips == [] then Silence(SilenceLength(video), SilenceFps) else Composite(clips);
      Success(MixPlan(audio, video.duration, outputPath))
  }

  /**
    The layers of a successful mix, position by position: the ducked original
    first when kept, then one clip per usable entry in segment order.
   */
  lemma MixLayout(video: Video, segs: seq<Segment>, files: seq<Option<string>>, onDisk: FileExists, outputPath: string, mode: string)
    requires MixAudio(video, segs, files, onDisk, outputPath, mode).Success?
    ensures var t := MixAudio(video, segs, files, onDisk, outputPath, mode).value.Tracks();
            var o := if KeepsOriginal(video, mode) then 1 else 0;
            var idx := UsedClipIndices(segs, files, onDisk);
            && |t| == o + |idx|
            && (o == 1 ==> t[0] == OriginalAudio(VoiceoverVolume))
            && forall j :: o <= j < |t| ==> t[j] == SpeechClip(segs, files, idx[j - o])
  {
    LayersLayout(video, segs, files, onDisk, mode);
  }

  /** The position-by-position layout of the two layers, before they become a plan. */
  lemma LayersLayout(video: Video, segs: seq<Segment>, files: seq<Option<string>>, onDisk: FileExists, mode: string)
    requires |segs| <= |files| || |segs| == 0 || |files| == 0
    ensures var t := OriginalLayer(video, mode) + SpeechLayer(segs, files, onDisk);
            var o := if KeepsOriginal(video, mode) then 1 else 0;
            var idx := UsedClipIndices(segs, files, onDisk);
            && |t| == o + |idx|
            && (o == 1 ==> t[0] == OriginalAudio(VoiceoverVolume))
            && forall j :: o <= j < |t| ==> t[j] == SpeechClip(segs, files, idx[j - o])
  {
    var original := OriginalLayer(video, mode);
    var speech := SpeechLayer(segs, files, onDisk);
    var t := original + speech;
    var o := |original|;
    var idx := UsedClipIndices(segs, files, onDisk);
    assert |speech| == |idx|;
    forall j | o <= j < |t|
      ensures t[j] == SpeechClip(segs, files, idx[j - o])
    {
      assert t[j] == speech[j - o];
    }
  }

  /** The original track is in the mix exactly in voiceover mode on a video that has audio. */
  lemma OriginalTrackIff(video: Video, segs: seq<Segment>, files: seq<Option<string>>, onDisk: FileExists, outputPath: string, mode: string)
    requires MixAudio(video, segs, files, onDisk, outputPath, mode).Success?
    ensures var t := MixAudio(video, segs, files, onDisk, outputPath, mode).value.Tracks();
            (OriginalAudio(VoiceoverVolume) in t <==> mode == Voiceover && video.hasAudio)
            && forall j :: 0 <= j < |t| && t[j].OriginalAudio? ==> j == 0 && t[j].volume == VoiceoverVolume
  {
  }

  /** Segment `k`'s clip is in the mix exactly when its audio entry is usable. */
  lemma ClipIncludedIff(video: Video, segs: seq<Segment>, files: seq<Option<string>>, onDisk: FileExists, outputPath: string, mode: string, k: nat)
    requires k < |segs| <= |files| && files[k].Some?
    ensures MixAudio(video, segs, files, onDisk, outputPath, mode).Success?
    ensures SpeechClip(segs, files, k) in MixAudio(video, segs, files, onDisk, outputPath, mode).value.Tracks()
            <==> Usable(files[k], onDisk)
  {
    var t := MixAudio(video, segs, files, onDisk, outputPath, mode).value.Tracks();
    var clip := SpeechClip(segs, files, k);
    if Usable(files[k], onDisk) {
      UsableClipInSpeech(segs, files, onDisk, k);
      assert t == OriginalLayer(video, mode) + SpeechLayer(segs, files, onDisk);
    }
    if clip in t {
      var m := SpeechTrackOrigin(video, segs, files, onDisk, outputPath, mode, clip);
      assert files[m].value == files[k].value;
    }
  }

  /** A usable entry's clip is in the speech layer. */
  lemma UsableClipInSpeech(segs: seq<Segment>, files: seq<Option<string>>, onDisk: FileExists, k: nat)
    requires k < |segs| <= |files| && Usable(files[k], onDisk)
    ensures SpeechClip(segs, files, k) in SpeechLayer(segs, files, onDisk)
  {
    var speech := SpeechLayer(segs, files, onDisk);
    var idx := ClipIndices(files, onDisk, 0, |segs|);
    assert speech == SpeechTracks(segs, files, onDisk, 0);
    assert k in idx;
    var j :| 0 <= j < |idx| && idx[j] == k;
    assert speech[j] == SpeechClip(segs, files, k);
  }

  /** Every speech track of a mix is the clip of some usable entry. */
  lemma SpeechTrackOrigin(video: Video, segs: seq<Segment>, files: seq<Option<string>>, onDisk: FileExists, outputPath: string, mode: string, t: Track)
    returns (m: nat)
    requires MixAudio(video, segs, files, onDisk, outputPath, mode).Success?
    requires t in MixAudio(video, segs, files, onDisk, outputPath, mode).value.Tracks() && t.Speech?
    ensures m < |segs| <= |files| && Usable(files[m], onDisk) && t == SpeechClip(segs, files, m)
  {
    var tracks := MixAudio(video, segs, files, onDisk, outputPath, mode).value.Tracks();
    var original := OriginalLayer(video, mode);
    var speech := SpeechLayer(segs, files, onDisk);
    assert tracks == original + speech;
    assert t !in original;
    assert t in speech;
    var idx := ClipIndices(files, onDisk, 0, |segs|);
    var j :| 0 <= j < |speech| && speech[j] == t;
    m := idx[j];
  }

  /** No speech clip is added when either list is empty. */
  lemma NoClipsWithoutSegmentsOrFiles(video: Video, segs: seq<Segment>, files: seq<Option<string>>, onDisk: FileExists, outputPath: string, mode: string)
    requires |segs| == 0 || |files| == 0
    ensures MixAudio(video, segs, files, onDisk, outputPath, mode).Success?
    ensures forall t :: t in MixAudio(video, segs, files, onDisk, outputPath, mode).value.Tracks() ==> !t.Speech?
  {
  }

  /**
    The two modes differ only by the ducked original: the voiceover mix is the
    dubbing mix with the original track in front, when the video has audio.
   */
  lemma VoiceoverIsDubbingPlusOriginal(video: Video, segs: seq<Segment>, files: seq<Option<string>>, onDisk: FileExists, outputPath: string)
    requires MixAudio(video, segs, files, onDisk, outputPath, "dubbing").Success?
    ensures MixAudio(video, segs, files, onDisk, outputPath, Voiceover).Success?
    ensures MixAudio(video, segs, files, onDisk, outputPath, Voiceover).value.Tracks()
         == (if video.hasAudio then [OriginalAudio(VoiceoverVolume)] else [])
            + MixAudio(video, segs, files, onDisk, outputPath, "dubbing").value.Tracks()
  {
    var speech := SpeechLayer(segs, files, onDisk);
    assert MixAudio(video, segs, files, onDisk, outputPath, "dubbing").value.Tracks() == speech by {
      assert OriginalLayer(video, "dubbing") == [];
      assert [] + speech == speech;
    }
  }
}

=== FILE: paths.dfy ===
/**
  The two `os.path` functions the core uses, with POSIX semantics
  (`posixpath.join` for two components and `posixpath.splitext`).
 */
module Paths {
  import opened Text

  /** `os.path.join(a, b)`. */
  function Join(a: string, b: string): (r: string)
    ensures |b| > 0 && b[0] == '/' ==> r == b
    ensures (b == [] || b[0] != '/') ==> |a| <= |r| && r[..|a|] == a
    ensures |b| <= |r| && r[|r| - |b|..] == b
    ensures (b == [] || b[0] != '/') && a != [] && a[|a| - 1] != '/' ==> r == a + "/" + b
    ensures (b == [] || b[0] != '/') && (a == [] || a[|a| - 1] == '/') ==> r == a + b
  {
    if |b| > 0 && b[0] == '/' then b
    else if a == [] || a[|a| - 1] == '/' then a + b
    else a + "/" + b
  }

  /** Under one directory, joining distinct relative names gives distinct paths. */
  lemma JoinCancel(a: string, b1: string, b2: string)
    requires b1 == [] || b1[0] != '/'
    requires b2 == [] || b2[0] != '/'
    requires Join(a, b1) == Join(a, b2)
    ensures b1 == b2
  {
    var p := if a == [] || a[|a| - 1] == '/' then a else a + "/";
    assert Join(a, b1) == p + b1 && Join(a, b2) == p + b2;
    assert b1 == (p + b1)[|p|..];
    assert b2 == (p + b2)[|p|..];
  }

  /** Some character of `p[lo..hi]` is not a dot: the leading-dots scan of `splitext`. */
  predicate HasNonDot(p: string, lo: int, hi: int)
    requires 0 <= lo && hi <= |p|
  {
    exists k :: lo <= k < hi && p[k] != '.'
  }

  /**
    `os.path.splitext(p)`: the extension starts at the last dot, provided that
    dot lies after the last '/' and is not part of a run of leading dots of the
    final component; otherwise the extension is empty.
   */
  function SplitExt(p: string): (r: (string, string))
    ensures r.0 + r.1 == p
    ensures r.1 == [] || (r.1[0] == '.' && '.' !in r.1[1..] && '/' !in r.1)
    ensures r.1 != [] ==> HasNonDot(p, RFind(p, '/') + 1, |r.0|)
    ensures r.1 == [] ==> forall k :: RFind(p, '/') < k < |p| && p[k] == '.' ==> !HasNonDot(p, RFind(p, '/') + 1, k)
  {
    var sepIndex := RFind(p, '/');
    var dotIndex := RFind(p, '.');
    if dotIndex > sepIndex && HasNonDot(p, sepIndex + 1, dotIndex) then
      assert forall j :: dotIndex < j < |p| ==> p[j] != '.' && p[j] != '/';
      assert p[dotIndex..][1..] == p[dotIndex + 1..];
      (p[..dotIndex], p[dotIndex..])
    else
      (p, [])
  }

  /** `rfind` in a concatenation looks in the right part first. */
  lemma {:induction false} RFindAppend(a: string, b: string, c: char)
    ensures RFind(a + b, c) == if RFind(b, c) >= 0 then |a| + RFind(b, c) else RFind(a, c)
    decreases |b|
  {
    if b != [] {
      assert (a + b)[..|a + b| - 1] == a + b[..|b| - 1];
      RFindAppend(a, b[..|b| - 1], c);
    } else {
      assert a + b == a;
    }
  }

  /** In `dir/name`, with no '/' in `name`, the last separator is the one added by the join. */
  lemma LastSeparatorOfJoined(dir: string, name: string)
    requires '/' !in name
    ensures RFind((dir + "/") + name, '/') == |dir|
  {
    RFindAppend(dir + "/", name, '/');
    assert RFind(name, '/') == -1;
  }

  /** In `dir/name`, the last dot is in `name` when `name` has one, and before the separator otherwise. */
  lemma LastDotOfJoined(dir: string, name: string)
    ensures RFind(name, '.') >= 0 ==> RFind((dir + "/") + name, '.') == |dir| + 1 + RFind(name, '.')
    ensures RFind(name, '.') < 0 ==> RFind((dir + "/") + name, '.') < |dir|
  {
    RFindAppend(dir + "/", name, '.');
    RFindAppend(dir, "/", '.');
  }

  /** The extension depends only on the final path component. */
  lemma ExtensionIgnoresDirectory(dir: string, name: string)
    requires '/' !in name
    ensures SplitExt((dir + "/") + name).1 == SplitExt(name).1
  {
    var pre := dir + "/";
    var p := pre + name;
    LastSeparatorOfJoined(dir, name);
    LastDotOfJoined(dir, name);
    assert RFind(name, '/') == -1;
    var d := RFind(name, '.');
    if d >= 0 {
      assert HasNonDot(p, |pre|, |pre| + d) <==> HasNonDot(name, 0, d) by {
        if HasNonDot(name, 0, d) {
          var k :| 0 <= k < d && name[k] != '.';
          assert p[|pre| + k] == name[k];
        }
        if HasNonDot(p, |pre|, |pre| + d) {
          var k :| |pre| <= k < |pre| + d && p[k] != '.';
          assert name[k - |pre|] == p[k];
        }
      }
      assert p[|pre| + d..] == name[d..];
    }
  }

  /** Lower-casing leaves every '.' and '/' where it was. */
  lemma {:induction false} RFindLower(s: string, c: char)
    requires !('A' <= c <= 'Z') && !('a' <= c <= 'z')
    ensures RFind(Lower(s), c) == RFind(s, c)
    decreases |s|
  {
    if s != [] {
      assert Lower(s)[..|s| - 1] == Lower(s[..|s| - 1]);
      RFindLower(s[..|s| - 1], c);
    }
  }

  /** Splitting commutes with lower-casing: `splitext` of the lowered path is the lowered split. */
  lemma SplitExtLower(p: string)
    ensures SplitExt(Lower(p)) == (Lower(SplitExt(p).0), Lower(SplitExt(p).1))
  {
    var q := Lower(p);
    RFindLower(p, '/');
    RFindLower(p, '.');
    var sep := RFind(p, '/');
    var dot := RFind(p, '.');
    if dot > sep {
      assert HasNonDot(q, sep + 1, dot) <==> HasNonDot(p, sep + 1, dot) by {
        if HasNonDot(q, sep + 1, dot) {
          var k :| sep + 1 <= k < dot && q[k] != '.';
          assert p[k] != '.';
        }
        if HasNonDot(p, sep + 1, dot) {
          var k :| sep + 1 <= k < dot && p[k] != '.';
          assert q[k] != '.';
        }
      }
      assert q[..dot] == Lower(p[..dot]);
      assert q[dot..] == Lower(p[dot..]);
    }
    assert Lower([]) == [];
  }
}

=== FILE: pipeline.dfy ===
/**
  The dubbing stages chained: translated segments feed synthesis, whose files
  feed the mixer. The segment list fixed by transcription is the backbone:
  every clip lands at the start time of the source segment it was made from.
 */
module Pipeline {
  import opened Common
  import opened Text
  import opened Segments
  import Translator
  import opened TtsEngine
  import opened Mixer

  /**
    When synthesis succeeds and every file it wrote is on disk, segment `i`'s
    clip is in the mix, at the source segment's start, exactly when its
    translated text is not blank.
   */
  lemma ClipsKeepSourceTiming(
    translate: Translator.Service, synth: Synthesizer, onDisk: FileExists, video: Video,
    source: seq<Segment>, sourceLang: string, targetLang: string, outputDir: string, style: string,
    outputPath: string, mode: string, i: nat)
    requires var translated := Translator.TranslateSegments(translate, source, sourceLang, targetLang);
             GenerateAudioSegments(synth, translated, outputDir, style, targetLang).Success?
    requires var translated := Translator.TranslateSegments(translate, source, sourceLang, targetLang);
             forall k :: 0 <= k < |source| && !IsBlank(translated[k].text) ==> onDisk(SegmentPath(outputDir, k))
    requires i < |source|
    ensures var translated := Translator.TranslateSegments(translate, source, sourceLang, targetLang);
            var files := GenerateAudioSegments(synth, translated, outputDir, style, targetLang).value;
            var mix := MixAudio(video, translated, files, onDisk, outputPath, mode);
            && mix.Success?
            && (Speech(SegmentPath(outputDir, i), source[i].start) in mix.value.Tracks()
                <==> !IsBlank(translated[i].text))
  {
    var translated := Translator.TranslateSegments(translate, source, sourceLang, targetLang);
    var files := GenerateAudioSegments(synth, translated, outputDir, style, targetLang).value;
    var mix := MixAudio(video, translated, files, onDisk, outputPath, mode);
    var clip := Speech(SegmentPath(outputDir, i), source[i].start);
    assert mix.Success?;
    if !IsBlank(translated[i].text) {
      assert files[i] == Some(SegmentPath(outputDir, i));
      ClipIncludedIff(video, translated, files, onDisk, outputPath, mode, i);
      assert SpeechClip(translated, files, i) == clip;
    }
    if clip in mix.value.Tracks() {
      var m := SpeechTrackOrigin(video, translated, files, onDisk, outputPath, mode, clip);
      assert files[m].value == SegmentPath(outputDir, m);
      SegmentPathInjective(outputDir, m, i);
    }
  }
}

=== FILE: segments.dfy ===
/** The transcript segment that every stage of the dubbing pipeline passes along. */
module Segments {

  /**
    One transcript segment: a dict with `start`, `end` and `text`, plus whatever
    other keys the speech-to-text engine emits (`id`, `seek`, `tokens`, ...),
    kept here as an opaque map because no stage reads them.
   */
  datatype Segment = Segment(start: real, end: real, text: string, rest: map<string, string>)
}

=== FILE: text.dfy ===
/**
  The handful of Python `str` operations the core relies on, as pure functions
  on `string` (a sequence of Unicode scalar values, like a Python `str`).
 */
module Text {

  /** `c.isspace()`: the characters Python treats as whitespace. */
  predicate IsSpace(c: char) {
    || ('\t' <= c <= '\r')
    || ('\U{001C}' <= c <= '\U{001F}')
    || c == ' '
    || c == '\U{0085}'
    || c == '\U{00A0}'
    || c == '\U{1680}'
    || ('\U{2000}' <= c <= '\U{200A}')
    || c == '\U{2028}'
    || c == '\U{2029}'
    || c == '\U{202F}'
    || c == '\U{205F}'
    || c == '\U{3000}'
  }

  /**
    Every character of `s` is whitespace (vacuously true of ""): the test
    `not s.strip()`, as `StripEmptyIffBlank` shows.
   */
  predicate IsBlank(s: string)
    decreases |s|
  {
    s == [] || (IsSpace(s[0]) && IsBlank(s[1..]))
  }

  /** Blankness, character by character. */
  lemma {:induction false} BlankIffAllSpace(s: string)
    ensures IsBlank(s) <==> forall i :: 0 <= i < |s| ==> IsSpace(s[i])
    decreases |s|
  {
    if s != [] {
      BlankIffAllSpace(s[1..]);
      assert forall i :: 1 <= i < |s| ==> s[i] == s[1..][i - 1];
    }
  }

  /** A concatenation is blank exactly when both parts are. */
  lemma {:induction false} BlankAppend(a: string, b: string)
    ensures IsBlank(a + b) <==> IsBlank(a) && IsBlank(b)
    decreases |a|
  {
    if a != [] {
      assert (a + b)[1..] == a[1..] + b;
      BlankAppend(a[1..], b);
    } else {
      assert a + b == b;
    }
  }

  /** `s.lstrip()`: drops leading whitespace. */
  function LStrip(s: string): (r: string)
    ensures |r| <= |s| && r == s[|s| - |r|..]
    ensures IsBlank(s[..|s| - |r|])
    ensures r == [] || !IsSpace(r[0])
    decreases |s|
  {
    if |s| > 0 && IsSpace(s[0]) then
      var r := LStrip(s[1..]);
      assert s[..|s| - |r|] == [s[0]] + s[1..][..|s| - 1 - |r|];
      BlankAppend([s[0]], s[1..][..|s| - 1 - |r|]);
      r
    else
      assert s[..0] == [];
      s
  }

  /** `s.rstrip()`: drops trailing whitespace. */
  function RStrip(s: string): (r: string)
    ensures |r| <= |s| && r == s[..|r|]
    ensures IsBlank(s[|r|..])
    ensures r == [] || !IsSpace(r[|r| - 1])
    decreases |s|
  {
    if |s| > 0 && IsSpace(s[|s| - 1]) then
      var r := RStrip(s[..|s| - 1]);
      assert s[|r|..] == s[..|s| - 1][|r|..] + [s[|s| - 1]];
      BlankAppend(s[..|s| - 1][|r|..], [s[|s| - 1]]);
      r
    else
      assert s[|s|..] == [];
      s
  }

  /** `s.strip()`. */
  function Strip(s: string): string {
    RStrip(LStrip(s))
  }

  /**
    `s.strip()` keeps the part of `s` between a blank prefix (the part
    `s.lstrip()` drops) and a blank suffix, and neither of its ends is
    whitespace.
   */
  lemma StripTrimsBlankEnds(s: string)
    ensures |s| - |LStrip(s)| + |Strip(s)| <= |s|
    ensures IsBlank(s[..|s| - |LStrip(s)|])
    ensures IsBlank(s[|s| - |LStrip(s)| + |Strip(s)|..])
    ensures Strip(s) == [] || (!IsSpace(Strip(s)[0]) && !IsSpace(Strip(s)[|Strip(s)| - 1]))
  {
    PrefixOfSuffix(s, LStrip(s), Strip(s));
  }

  /**
    With `l == s.lstrip()` and `r == l.rstrip()` (so `r == s.strip()`): `r` is
    the slice of `s` that starts where `l` does.
   */
  lemma StripIsSlice(s: string, l: string, r: string)
    requires l == LStrip(s) && r == RStrip(l)
    ensures |s| - |l| + |r| <= |s| && r == s[|s| - |l|..|s| - |l| + |r|]
  {
    PrefixOfSuffix(s, l, r);
  }

  /** A prefix `r` of a suffix `l` of `s` is a slice of `s`, and what follows it in `l` is what follows it in `s`. */
  lemma PrefixOfSuffix(s: string, l: string, r: string)
    requires |l| <= |s| && l == s[|s| - |l|..]
    requires |r| <= |l| && r == l[..|r|]
    ensures |s| - |l| + |r| <= |s|
    ensures r == s[|s| - |l|..|s| - |l| + |r|]
    ensures s[|s| - |l| + |r|..] == l[|r|..]
  {
  }

  /** `s.strip()` is empty exactly when every character of `s` is whitespace. */
  lemma StripEmptyIffBlank(s: string)
    ensures Strip(s) == [] <==> IsBlank(s)
  {
    var l := LStrip(s);
    var leading := s[..|s| - |l|];
    assert s == leading + l;
    BlankAppend(leading, l);
    if RStrip(l) == [] {
      assert l[0..] == l;
    }
    if IsBlank(l) {
      assert l == [];
    }
  }

  /** The ASCII case mapping behind `str.lower()`. */
  function LowerChar(c: char): char {
    if 'A' <= c <= 'Z' then (c as int + 32) as char else c
  }

  /** The ASCII case mapping behind `str.upper()`. */
  function UpperChar(c: char): char {
    if 'a' <= c <= 'z' then (c as int - 32) as char else c
  }

  /** `s.lower()`, position by position. */
  function Lower(s: string): (r: string)
    ensures |r| == |s|
  {
    seq(|s|, i requires 0 <= i < |s| => LowerChar(s[i]))
  }

  /** Lower-casing works character by character from the front. */
  lemma LowerCons(s: string)
    requires s != []
    ensures Lower(s) == [LowerChar(s[0])] + Lower(s[1..])
  {
    var r := [LowerChar(s[0])] + Lower(s[1..]);
    assert forall i :: 0 < i < |s| ==> r[i] == Lower(s[1..])[i - 1] == LowerChar(s[i]);
  }

  /** `s.upper()`, position by position. */
  function Upper(s: string): (r: string)
    ensures |r| == |s|
  {
    seq(|s|, i requires 0 <= i < |s| => UpperChar(s[i]))
  }

  /** Lowering twice is lowering once. */
  lemma LowerIdempotent(s: string)
    ensures Lower(Lower(s)) == Lower(s)
  {
  }

  /** `s[:n]` for a non-negative `n`: the first `n` characters, or all of `s` if it is shorter. */
  function Take(s: string, n: nat): (r: string)
    ensures |r| <= n && |r| <= |s|
    ensures r == s[..|r|]
    ensures |s| <= n ==> r == s
    ensures n <= |s| ==> |r| == n
  {
    if n <= |s| then s[..n] else s
  }

  /** `s.lstrip(c)` for one character `c`. */
  function LStripChar(s: string, c: char): (r: string)
    ensures |r| <= |s| && r == s[|s| - |r|..]
    ensures forall i :: 0 <= i < |s| - |r| ==> s[i] == c
    ensures r == [] || r[0] != c
    decreases |s|
  {
    if |s| > 0 && s[0] == c then LStripChar(s[1..], c) else s
  }

  /** `s.split(c)[0]`: everything before the first `c`, or all of `s`. */
  function BeforeFirst(s: string, c: char): (r: string)
    ensures |r| <= |s| && r == s[..|r|]
    ensures c !in r
    ensures |r| < |s| ==> s[|r|] == c
    decreases |s|
  {
    if |s| == 0 || s[0] == c then [] else [s[0]] + BeforeFirst(s[1..], c)
  }

  /** `s.rfind(c)`: the index of the last `c`, or -1. */
  function RFind(s: string, c: char): (r: int)
    ensures -1 <= r < |s|
    ensures 0 <= r ==> s[r] == c
    ensures forall j :: r < j < |s| ==> s[j] != c
    decreases |s|
  {
    if |s| == 0 then -1
    else if s[|s| - 1] == c then |s| - 1
    else RFind(s[..|s| - 1], c)
  }

  /** `s.startswith(p)`. */
  predicate StartsWith(s: string, p: string) {
    |p| <= |s| && s[..|p|] == p
  }
}

=== FILE: tiktok_client.dfy ===
/**
  The upload client: chunk arithmetic, splitting the file into chunks, the
  initialisation payload, and the init / chunks / commit sequence that stops
  at the first reply that is not `ok`. HTTP is a `Service` oracle.
 */
module TikTokClient {
  import opened Common
  import opened Text
  import opened Config
  import opened VideoProcessor

  /** The chunk size the client declares and reads with: 10 MiB. */
  const ChunkSize: nat := 10485760

  /** The longest title sent: the caption is cut to this many characters. */
  const TitleLimit: nat := 100

  /** The largest page of videos the service returns. */
  const VideoListLimit: int := 20

  /** The cover frame timestamp the payload always carries. */
  const CoverTimestampMs: nat := 1000

  /** A client built from a configuration that validated. */
  datatype Uploader = Uploader(config: TikTokConfig)

  /** `TikTokUploader()`: refuses a configuration with validation errors. */
  function NewUploader(cfg: TikTokConfig): (r: Result<Uploader, seq<ConfigError>>)
    ensures r.Success? <==> Validate(cfg) == []
    ensures r.Success? ==> r.value.config == cfg && IsConfigured(cfg)
    ensures r.Failure? ==> r.error == Validate(cfg) && r.error != []
  {
    var errors := Validate(cfg);
    if errors == [] then Success(Uploader(cfg)) else Failure(errors)
  }

  /** `_calculate_chunks`: `(size + chunk - 1) // chunk`, the least `n` with `n * chunk >= size`. */
  function CalculateChunks(fileSize: nat, chunkSize: nat): (n: nat)
    requires chunkSize > 0
    ensures n * chunkSize >= fileSize
    ensures n > 0 ==> (n - 1) * chunkSize < fileSize
    ensures n == 0 <==> fileSize == 0
  {
    var q := (fileSize + chunkSize - 1) / chunkSize;
    var m := (fileSize + chunkSize - 1) % chunkSize;
    assert fileSize + chunkSize - 1 == q * chunkSize + m;
    assert q * chunkSize - chunkSize == (q - 1) * chunkSize;
    q
  }

  /** The bytes of consecutive chunks, glued back together. */
  function Flatten<T>(chunks: seq<seq<T>>): seq<T> {
    if chunks == [] then [] else chunks[0] + Flatten(chunks[1..])
  }

  /** A file one chunk larger needs one chunk more. */
  lemma CalculateChunksStep(fileSize: nat, chunkSize: nat)
    requires chunkSize > 0 && fileSize > chunkSize
    ensures CalculateChunks(fileSize, chunkSize) == CalculateChunks(fileSize - chunkSize, chunkSize) + 1
  {
    var n := CalculateChunks(fileSize - chunkSize, chunkSize);
    assert (n + 1) * chunkSize == n * chunkSize + chunkSize;
    CeilingIsUnique(fileSize, chunkSize, n + 1);
  }

  /** Any `n` meeting the two bounds is the chunk count. */
  lemma CeilingIsUnique(fileSize: nat, chunkSize: nat, n: nat)
    requires chunkSize > 0 && n > 0
    requires n * chunkSize >= fileSize && (n - 1) * chunkSize < fileSize
    ensures CalculateChunks(fileSize, chunkSize) == n
  {
    var c := CalculateChunks(fileSize, chunkSize);
    MulBelow(c, n, chunkSize);
    MulBelow(n, c, chunkSize);
  }

  /** A smaller count covers at most the bytes of one chunk fewer. */
  lemma MulBelow(a: nat, b: nat, k: nat)
    ensures a < b ==> a * k <= (b - 1) * k
  {
    if a < b {
      MulMonotone(a, b - 1, k);
    }
  }

  lemma MulMonotone(a: nat, b: nat, k: nat)
    requires a <= b
    ensures a * k <= b * k
  {
  }

  /**
    The chunks `_upload_video_chunks` reads with `f.read(chunk_size)` until
    an empty read: non-empty, at most `size` bytes, all but the last full,
    as many as `_calculate_chunks` declares, and together exactly the file.
   */
  function Chunks<T>(data: seq<T>, size: nat): (r: seq<seq<T>>)
    requires size > 0
    ensures Flatten(r) == data
    ensures forall k :: 0 <= k < |r| ==> 0 < |r[k]| <= size
    ensures forall k :: 0 <= k < |r| - 1 ==> |r[k]| == size
    ensures |r| == CalculateChunks(|data|, size)
    decreases |data|
  {
    if |data| == 0 then []
    else if |data| <= size then
      assert CalculateChunks(|data|, size) == 1 by {
        CeilingIsUnique(|data|, size, 1);
      }
      [data]
    else
      CalculateChunksStep(|data|, size);
      var rest := Chunks(data[size..], size);
      assert data[..size] + data[size..] == data;
      [data[..size]] + rest
  }

  /** `f.read(n)` with the file positioned at `offset`. */
  function ReadAt<T>(data: seq<T>, offset: nat, n: nat): seq<T>
    requires offset <= |data|
  {
    if offset + n <= |data| then data[offset..offset + n] else data[offset..]
  }

  /** Chunk `k` is what the `k+1`-th read returns: the bytes from offset `k * size`. */
  lemma {:induction false} ChunkIsRead<T>(data: seq<T>, size: nat, k: nat)
    requires size > 0 && k < |Chunks(data, size)|
    ensures k * size < |data|
    ensures Chunks(data, size)[k] == ReadAt(data, k * size, size)
    decreases |data|
  {
    var r := Chunks(data, size);
    if |data| <= size {
      assert r == [data];
      assert k == 0;
    } else {
      var rest := Chunks(data[size..], size);
      assert r == [data[..size]] + rest;
      if k > 0 {
        assert r[k] == rest[k - 1];
        ChunkIsRead(data[size..], size, k - 1);
        MulStep(k, size);
        ReadAtShift(data, size, (k - 1) * size, size);
      }
    }
  }

  lemma MulStep(k: nat, size: nat)
    requires k > 0
    ensures (k - 1) * size + size == k * size
  {
  }

  /** Reading at `offset` after skipping `skip` items is reading at `skip + offset`. */
  lemma ReadAtShift<T>(data: seq<T>, skip: nat, offset: nat, n: nat)
    requires skip + offset <= |data|
    ensures ReadAt(data[skip..], offset, n) == ReadAt(data, skip + offset, n)
  {
  }

  /** The per-post switches of `upload_video`. */
  datatype PostOptions = PostOptions(disableDuet: bool, disableComment: bool, disableStitch: bool)

  /** The body of the initialisation request. */
  datatype InitPayload = InitPayload(
    title: string,
    privacyLevel: string,
    options: PostOptions,
    coverTimestampMs: nat,
    source: string,
    videoSize: nat,
    chunkSize: nat,
    totalChunkCount: nat)

  /**
    `init_data`: the title is the caption's first 100 characters, the privacy
    level the requested one (or the configured default) upper-cased, and the
    chunk count the one the file will be split into.
   */
  function InitPayloadFor(cfg: TikTokConfig, file: VideoFile, caption: string, privacy: Option<string>, options: PostOptions): (p: InitPayload)
    ensures |p.title| <= TitleLimit && |p.title| <= |caption| && p.title == caption[..|p.title|]
    ensures |caption| <= TitleLimit ==> p.title == caption
    ensures TitleLimit <= |caption| ==> p.title == caption[..TitleLimit]
    ensures p.privacyLevel == Upper(privacy.GetOr(cfg.defaultPrivacy))
    ensures p.options == options && p.coverTimestampMs == CoverTimestampMs && p.source == "FILE_UPLOAD"
    ensures p.videoSize == file.Size() && p.chunkSize == ChunkSize
    ensures p.totalChunkCount == |Chunks(file.contents, ChunkSize)|
  {
    InitPayload(
      Take(caption, TitleLimit),
      Upper(privacy.GetOr(cfg.defaultPrivacy)),
      options,
      CoverTimestampMs,
      "FILE_UPLOAD",
      file.Size(),
      ChunkSize,
      CalculateChunks(file.Size(), ChunkSize))
  }

  /** The three kinds of request the upload makes. */
  datatype Request =
    | InitUpload(payload: InitPayload)
    | UploadChunk(url: string, uploadId: string, number: nat, data: seq<byte>)
    | CommitUpload(uploadId: string)

  /**
    A reply: `ok` when the request went through and its `error.code` is "ok";
    the init reply also carries the upload id and URL.
   */
  datatype Reply = Reply(ok: bool, uploadId: string, uploadUrl: string)

  /** The remote service, as an oracle. */
  type Service = Request -> Reply

  /** Why an upload stopped. */
  datatype UploadError =
    | InvalidVideo(errors: seq<VideoError>)
    | InitFailed
    | ChunkFailed(number: nat)
    | CommitFailed

  /** The requests an upload made, in order, and its outcome (the commit reply on success). */
  datatype UploadRun = UploadRun(requests: seq<Request>, outcome: Result<Reply, UploadError>)

  /** The requests of the chunk loop, and the number of the chunk whose reply was not `ok`. */
  datatype ChunkRun = ChunkRun(requests: seq<Request>, failed: Option<nat>)

  /** The request for chunk `k` (0-based): chunk numbers start at 1. */
  function ChunkRequest(url: string, uploadId: string, chunks: seq<seq<byte>>, k: nat): Request
    requires k < |chunks|
  {
    UploadChunk(url, uploadId, k + 1, chunks[k])
  }

  /** `_upload_video_chunks` from chunk `i` on: one request per chunk, stopping after the first that is not `ok`. */
  function SendChunks(service: Service, url: string, uploadId: string, chunks: seq<seq<byte>>, i: nat): (r: ChunkRun)
    requires i <= |chunks|
    ensures |r.requests| <= |chunks| - i
    ensures forall j :: 0 <= j < |r.requests| ==> r.requests[j] == ChunkRequest(url, uploadId, chunks, i + j)
    ensures forall j :: 0 <= j < |r.requests| - 1 ==> service(r.requests[j]).ok
    ensures r.failed.None? <==> forall k :: i <= k < |chunks| ==> service(ChunkRequest(url, uploadId, chunks, k)).ok
    ensures r.failed.None? ==> |r.requests| == |chunks| - i
    ensures r.failed.Some? ==> |r.requests| > 0 && r.failed.value == i + |r.requests|
                               && !service(r.requests[|r.requests| - 1]).ok
    decreases |chunks| - i
  {
    if i == |chunks| then ChunkRun([], None)
    else
      var req := ChunkRequest(url, uploadId, chunks, i);
      if !service(req).ok then ChunkRun([req], Some(i + 1))
      else
        var rest := SendChunks(service, url, uploadId, chunks, i + 1);
        ChunkRun([req] + rest.requests, rest.failed)
  }

  /** Every chunk request of an upload, numbered 1 to n. */
  function AllChunkRequests(url: string, uploadId: string, chunks: seq<seq<byte>>): (r: seq<Request>)
    ensures |r| == |chunks|
    ensures forall k :: 0 <= k < |r| ==> r[k] == ChunkRequest(url, uploadId, chunks, k)
  {
    seq(|chunks|, k requires 0 <= k < |chunks| => ChunkRequest(url, uploadId, chunks, k))
  }

  /** The full request sequence of an upload that nothing stops: init, every chunk, commit. */
  function Protocol(payload: InitPayload, init: Reply, chunks: seq<seq<byte>>): seq<Request> {
    [InitUpload(payload)] + AllChunkRequests(init.uploadUrl, init.uploadId, chunks) + [CommitUpload(init.uploadId)]
  }

  /** Everything an upload of `file` depends on, gathered once. */
  function PayloadOf(up: Uploader, file: VideoFile, caption: string, privacy: Option<string>, options: PostOptions): InitPayload {
    InitPayloadFor(up.config, file, caption, privacy, options)
  }

  /**
    The requests of `upload_video` once the file is valid: the init request,
    the chunks, then the commit, stopping at the first reply that is not `ok`.
   */
  function Transfer(payload: InitPayload, chunks: seq<seq<byte>>, service: Service): (run: UploadRun)
    ensures run.requests != [] && run.requests[0] == InitUpload(payload)
  {
    var init := InitUpload(payload);
    var initReply := service(init);
    if !initReply.ok then UploadRun([init], Failure(InitFailed))
    else
      var sent := SendChunks(service, initReply.uploadUrl, initReply.uploadId, chunks, 0);
      if sent.failed.Some? then UploadRun([init] + sent.requests, Failure(ChunkFailed(sent.failed.value)))
      else
        var commit := CommitUpload(initReply.uploadId);
        var commitReply := service(commit);
        UploadRun([init] + sent.requests + [commit], if commitReply.ok then Success(commitReply) else Failure(CommitFailed))
  }

  /**
    `upload_video`: validate the file (raising before any request), then
    transfer it in chunks of `ChunkSize` bytes.
   */
  function UploadVideo(up: Uploader, file: VideoFile, caption: string, privacy: Option<string>, options: PostOptions, service: Service): (run: UploadRun)
    ensures var v := ValidateVideo(up.config, file);
            !v.valid ==> run == UploadRun([], Failure(InvalidVideo(v.errors)))
    ensures ValidateVideo(up.config, file).valid ==> run.requests != [] && run.requests[0] == InitUpload(PayloadOf(up, file, caption, privacy, options))
    ensures ValidateVideo(up.config, file).valid
            ==> run == Transfer(PayloadOf(up, file, caption, privacy, options), Chunks(file.contents, ChunkSize), service)
  {
    var v := ValidateVideo(up.config, file);
    if !v.valid then UploadRun([], Failure(InvalidVideo(v.errors)))
    else Transfer(PayloadOf(up, file, caption, privacy, options), Chunks(file.contents, ChunkSize), service)
  }

  /** `a` is an initial part of `b`. */
  predicate IsPrefix<T(==)>(a: seq<T>, b: seq<T>) {
    |a| <= |b| && b[..|a|] == a
  }

  /**
    A valid file's upload makes some initial part of the protocol's requests,
    never skipping or reordering one: init, chunks 1..n, commit.
   */
  lemma UploadFollowsProtocol(up: Uploader, file: VideoFile, caption: string, privacy: Option<string>, options: PostOptions, service: Service)
    requires ValidateVideo(up.config, file).valid
    ensures var payload := PayloadOf(up, file, caption, privacy, options);
            var run := UploadVideo(up, file, caption, privacy, options, service);
            IsPrefix(run.requests, Protocol(payload, service(InitUpload(payload)), Chunks(file.contents, ChunkSize)))
  {
    TransferFollowsProtocol(PayloadOf(up, file, caption, privacy, options), Chunks(file.contents, ChunkSize), service);
  }

  /** The transfer makes an initial part of init, chunks 1..n, commit. */
  lemma TransferFollowsProtocol(payload: InitPayload, chunks: seq<seq<byte>>, service: Service)
    ensures IsPrefix(Transfer(payload, chunks, service).requests, Protocol(payload, service(InitUpload(payload)), chunks))
  {
    var init := service(InitUpload(payload));
    var full := Protocol(payload, init, chunks);
    var run := Transfer(payload, chunks, service);
    if init.ok {
      var sent := SendChunks(service, init.uploadUrl, init.uploadId, chunks, 0);
      var all := AllChunkRequests(init.uploadUrl, init.uploadId, chunks);
      assert all[..|sent.requests|] == sent.requests;
      if sent.failed.Some? {
        assert run.requests == [InitUpload(payload)] + sent.requests;
        assert full[..|run.requests|] == [InitUpload(payload)] + all[..|sent.requests|];
      } else {
        assert sent.requests == all;
        assert run.requests == full;
      }
    }
  }

  /** A transfer succeeds exactly when the init, every chunk and the commit reply `ok`. */
  lemma TransferSucceedsIff(payload: InitPayload, chunks: seq<seq<byte>>, service: Service)
    ensures var init := service(InitUpload(payload));
            Transfer(payload, chunks, service).outcome.Success?
            <==> && init.ok
                 && (forall k :: 0 <= k < |chunks| ==> service(ChunkRequest(init.uploadUrl, init.uploadId, chunks, k)).ok)
                 && service(CommitUpload(init.uploadId)).ok
  {
  }

  /**
    What a transfer ends with: on success the commit's reply, after the whole
    protocol; a rejected commit also comes after the whole protocol.
   */
  lemma TransferOutcome(payload: InitPayload, chunks: seq<seq<byte>>, service: Service)
    ensures var init := service(InitUpload(payload));
            var run := Transfer(payload, chunks, service);
            && (run.outcome.Success? ==>
                  && run.outcome.value == service(CommitUpload(init.uploadId))
                  && run.requests == Protocol(payload, init, chunks))
            && (run.outcome.Failure? && run.outcome.error.CommitFailed? ==>
                  && !service(CommitUpload(init.uploadId)).ok
                  && run.requests == Protocol(payload, init, chunks))
  {
    var init := service(InitUpload(payload));
    if init.ok {
      var sent := SendChunks(service, init.uploadUrl, init.uploadId, chunks, 0);
      if sent.failed.None? {
        assert sent.requests == AllChunkRequests(init.uploadUrl, init.uploadId, chunks);
      }
    }
  }

  /** A reply that is not `ok` to the init request stops the upload before any chunk or commit. */
  lemma InitFailureStopsUpload(up: Uploader, file: VideoFile, caption: string, privacy: Option<string>, options: PostOptions, service: Service)
    requires ValidateVideo(up.config, file).valid
    requires !service(InitUpload(PayloadOf(up, file, caption, privacy, options))).ok
    ensures UploadVideo(up, file, caption, privacy, options, service)
         == UploadRun([InitUpload(PayloadOf(up, file, caption, privacy, options))], Failure(InitFailed))
  {
  }

  /**
    A chunk whose reply is not `ok` ends the upload: it is the last request
    made, its number is within the declared count, and nothing is committed.
   */
  lemma ChunkFailureStopsUpload(up: Uploader, file: VideoFile, caption: string, privacy: Option<string>, options: PostOptions, service: Service)
    requires UploadVideo(up, file, caption, privacy, options, service).outcome.Failure?
    requires UploadVideo(up, file, caption, privacy, options, service).outcome.error.ChunkFailed?
    ensures var run := UploadVideo(up, file, caption, privacy, options, service);
            var n := run.outcome.error.number;
            var last := run.requests[|run.requests| - 1];
            && 1 <= n <= PayloadOf(up, file, caption, privacy, options).totalChunkCount
            && |run.requests| == n + 1
            && last.UploadChunk? && last.number == n && !service(last).ok
            && (forall j :: 0 <= j < |run.requests| - 1 ==> service(run.requests[j]).ok)
            && forall j :: 0 <= j < |run.requests| ==> !run.requests[j].CommitUpload?
  {
    var payload := PayloadOf(up, file, caption, privacy, options);
    var chunks := Chunks(file.contents, ChunkSize);
    assert ValidateVideo(up.config, file).valid;
    TransferChunkFailure(payload, chunks, service);
  }

  /** The transfer-level half of `ChunkFailureStopsUpload`, for any chunk list. */
  lemma TransferChunkFailure(payload: InitPayload, chunks: seq<seq<byte>>, service: Service)
    requires Transfer(payload, chunks, service).outcome.Failure?
    requires Transfer(payload, chunks, service).outcome.error.ChunkFailed?
    ensures var run := Transfer(payload, chunks, service);
            var n := run.outcome.error.number;
            var last := run.requests[|run.requests| - 1];
            && 1 <= n <= |chunks|
            && |run.requests| == n + 1
            && last.UploadChunk? && last.number == n && !service(last).ok
            && (forall j :: 0 <= j < |run.requests| - 1 ==> service(run.requests[j]).ok)
            && forall j :: 0 <= j < |run.requests| ==> !run.requests[j].CommitUpload?
  {
    var init := service(InitUpload(payload));
    var sent := SendChunks(service, init.uploadUrl, init.uploadId, chunks, 0);
    var run := Transfer(payload, chunks, service);
    assert run.requests == [InitUpload(payload)] + sent.requests;
    assert run.requests[|run.requests| - 1] == sent.requests[|sent.requests| - 1];
    forall j | 1 <= j < |run.requests| - 1
      ensures service(run.requests[j]).ok
    {
      assert run.requests[j] == sent.requests[j - 1];
    }
  }

  /**
    When the init reply is `ok` and chunk `k` (0-based) is the first chunk
    whose reply is not, the transfer sends the init request and chunks 1 to
    `k + 1`, stops there with that chunk's number, and never commits.
   */
  lemma TransferStopsAtFirstRejectedChunk(payload: InitPayload, chunks: seq<seq<byte>>, service: Service, k: nat)
    requires var init := service(InitUpload(payload));
             && init.ok && k < |chunks|
             && (forall j :: 0 <= j < k ==> service(ChunkRequest(init.uploadUrl, init.uploadId, chunks, j)).ok)
             && !service(ChunkRequest(init.uploadUrl, init.uploadId, chunks, k)).ok
    ensures var init := service(InitUpload(payload));
            Transfer(payload, chunks, service)
            == UploadRun([InitUpload(payload)] + AllChunkRequests(init.uploadUrl, init.uploadId, chunks)[..k + 1],
                         Failure(ChunkFailed(k + 1)))
  {
    var init := service(InitUpload(payload));
    var sent := SendChunks(service, init.uploadUrl, init.uploadId, chunks, 0);
    var all := AllChunkRequests(init.uploadUrl, init.uploadId, chunks);
    assert sent.failed.Some?;
    var m := |sent.requests| - 1;
    assert sent.requests[m] == ChunkRequest(init.uploadUrl, init.uploadId, chunks, m);
    assert !service(ChunkRequest(init.uploadUrl, init.uploadId, chunks, m)).ok;
    forall j | 0 <= j < m
      ensures service(ChunkRequest(init.uploadUrl, init.uploadId, chunks, j)).ok
    {
      assert sent.requests[j] == ChunkRequest(init.uploadUrl, init.uploadId, chunks, j);
    }
    assert m == k;
    assert sent.requests == all[..k + 1];
  }

  /** A transfer that commits had its init and every chunk accepted. */
  lemma TransferCommitMeansEveryChunkOk(payload: InitPayload, chunks: seq<seq<byte>>, service: Service, j: nat)
    requires var run := Transfer(payload, chunks, service);
             j < |run.requests| && run.requests[j].CommitUpload?
    ensures var init := service(InitUpload(payload));
            && init.ok
            && forall k :: 0 <= k < |chunks| ==> service(ChunkRequest(init.uploadUrl, init.uploadId, chunks, k)).ok
  {
  }

  /**
    For a valid file whose init is accepted, a chunk whose reply is not `ok`
    stops the upload right there: the init request and chunks 1 to `k + 1`
    are the only requests, the outcome names chunk `k + 1`, nothing is committed.
   */
  lemma RejectedChunkStopsUpload(up: Uploader, file: VideoFile, caption: string, privacy: Option<string>, options: PostOptions, service: Service, k: nat)
    requires ValidateVideo(up.config, file).valid
    requires var payload := PayloadOf(up, file, caption, privacy, options);
             var chunks := Chunks(file.contents, ChunkSize);
             var init := service(InitUpload(payload));
             && init.ok && k < |chunks|
             && (forall j :: 0 <= j < k ==> service(ChunkRequest(init.uploadUrl, init.uploadId, chunks, j)).ok)
             && !service(ChunkRequest(init.uploadUrl, init.uploadId, chunks, k)).ok
    ensures var payload := PayloadOf(up, file, caption, privacy, options);
            var chunks := Chunks(file.contents, ChunkSize);
            var init := service(InitUpload(payload));
            UploadVideo(up, file, caption, privacy, options, service)
            == UploadRun([InitUpload(payload)] + AllChunkRequests(init.uploadUrl, init.uploadId, chunks)[..k + 1],
                         Failure(ChunkFailed(k + 1)))
  {
    TransferStopsAtFirstRejectedChunk(PayloadOf(up, file, caption, privacy, options), Chunks(file.contents, ChunkSize), service, k);
  }

  /** A valid file's upload that commits had its init and every chunk accepted. */
  lemma UploadCommitMeansEveryChunkOk(up: Uploader, file: VideoFile, caption: string, privacy: Option<string>, options: PostOptions, service: Service, j: nat)
    requires ValidateVideo(up.config, file).valid
    requires var run := UploadVideo(up, file, caption, privacy, options, service);
             j < |run.requests| && run.requests[j].CommitUpload?
    ensures var payload := PayloadOf(up, file, caption, privacy, options);
            var chunks := Chunks(file.contents, ChunkSize);
            var init := service(InitUpload(payload));
            && init.ok
            && forall k :: 0 <= k < |chunks| ==> service(ChunkRequest(init.uploadUrl, init.uploadId, chunks, k)).ok
  {
    TransferCommitMeansEveryChunkOk(PayloadOf(up, file, caption, privacy, options), Chunks(file.contents, ChunkSize), service, j);
  }

  /**
    A committed upload sent every chunk, numbered 1 to the declared
    `total_chunk_count`, in order, and each chunk is the next read of the file.
   */
  lemma CommitFollowsEveryChunk(up: Uploader, file: VideoFile, caption: string, privacy: Option<string>, options: PostOptions, service: Service, j: nat)
    requires var run := UploadVideo(up, file, caption, privacy, options, service);
             j < |run.requests| && run.requests[j].CommitUpload?
    ensures var payload := PayloadOf(up, file, caption, privacy, options);
            var run := UploadVideo(up, file, caption, privacy, options, service);
            && j == payload.totalChunkCount + 1 == |run.requests| - 1
            && forall k :: 1 <= k <= payload.totalChunkCount ==>
                 run.requests[k].UploadChunk? && run.requests[k].number == k
                 && run.requests[k].data == ReadAt(file.contents, (k - 1) * ChunkSize, ChunkSize)
  {
    var payload := PayloadOf(up, file, caption, privacy, options);
    var chunks := Chunks(file.contents, ChunkSize);
    assert ValidateVideo(up.config, file).valid;
    var run := Transfer(payload, chunks, service);
    TransferCommitFollowsEveryChunk(payload, chunks, service, j);
    forall k | 1 <= k <= |chunks|
      ensures run.requests[k].data == ReadAt(file.contents, (k - 1) * ChunkSize, ChunkSize)
    {
      ChunkIsRead(file.contents, ChunkSize, k - 1);
    }
  }

  /** The transfer-level half of `CommitFollowsEveryChunk`: a commit comes right after chunk `k` for every `k`. */
  lemma TransferCommitFollowsEveryChunk(payload: InitPayload, chunks: seq<seq<byte>>, service: Service, j: nat)
    requires var run := Transfer(payload, chunks, service);
             j < |run.requests| && run.requests[j].CommitUpload?
    ensures var run := Transfer(payload, chunks, service);
            && j == |chunks| + 1 == |run.requests| - 1
            && forall k :: 1 <= k <= |chunks| ==>
                 run.requests[k].UploadChunk? && run.requests[k].number == k && run.requests[k].data == chunks[k - 1]
  {
    var run := Transfer(payload, chunks, service);
    var init := service(InitUpload(payload));
    var sent := SendChunks(service, init.uploadUrl, init.uploadId, chunks, 0);
    assert init.ok && sent.failed.None?;
    assert run.requests == [InitUpload(payload)] + sent.requests + [CommitUpload(init.uploadId)];
    forall k | 1 <= k <= |chunks|
      ensures run.requests[k] == ChunkRequest(init.uploadUrl, init.uploadId, chunks, k - 1)
    {
      assert run.requests[k] == sent.requests[k - 1];
    }
  }

  /** `get_video_list`'s `max_count`: the requested count, capped at 20. */
  function VideoListCount(maxCount: int): (r: int)
    ensures r <= VideoListLimit && r <= maxCount
    ensures r == maxCount || r == VideoListLimit
  {
    if maxCount < VideoListLimit then maxCount else VideoListLimit
  }
}

=== FILE: translator.dfy ===
/** The translation stage: each segment's text is translated on its own. */
module Translator {
  import opened Common
  import opened Segments

  /**
    The translation service, `GoogleTranslator(source, target).translate(text)`:
    `Some(t)` when it returns `t`, `None` when it raises.
   */
  type Service = (string, string, string) -> Option<string>

  /** `translate_text`: the service's answer, or the input unchanged when the service raises. */
  function TranslateText(service: Service, text: string, sourceLang: string, targetLang: string): (r: string)
    ensures service(text, sourceLang, targetLang).Some? ==> r == service(text, sourceLang, targetLang).value
    ensures service(text, sourceLang, targetLang).None? ==> r == text
  {
    service(text, sourceLang, targetLang).GetOr(text)
  }

  /**
    `translate_segments`: a new list, one segment per input segment in the same
    order; each is a copy of its input with only `text` replaced.
   */
  function TranslateSegments(service: Service, segs: seq<Segment>, sourceLang: string, targetLang: string): (r: seq<Segment>)
    ensures |r| == |segs|
    ensures forall i :: 0 <= i < |segs| ==>
              r[i] == segs[i].(text := TranslateText(service, segs[i].text, sourceLang, targetLang))
    decreases |segs|
  {
    if segs == [] then []
    else
      TranslateSegments(service, segs[..|segs| - 1], sourceLang, targetLang)
      + [segs[|segs| - 1].(text := TranslateText(service, segs[|segs| - 1].text, sourceLang, targetLang))]
  }

  /** The translated list keeps every segment's timing and every key other than `text`. */
  lemma TranslationKeepsTiming(service: Service, segs: seq<Segment>, sourceLang: string, targetLang: string)
    ensures var r := TranslateSegments(service, segs, sourceLang, targetLang);
            |r| == |segs| &&
            forall i :: 0 <= i < |segs| ==>
              r[i].start == segs[i].start && r[i].end == segs[i].end && r[i].rest == segs[i].rest
  {
  }

  /** With a service that always raises, translation returns its input unchanged. */
  lemma FailingServiceIsIdentity(service: Service, segs: seq<Segment>, sourceLang: string, targetLang: string)
    requires forall t :: service(t, sourceLang, targetLang).None?
    ensures TranslateSegments(service, segs, sourceLang, targetLang) == segs
  {
    var r := TranslateSegments(service, segs, sourceLang, targetLang);
    forall i | 0 <= i < |segs|
      ensures r[i] == segs[i]
    {
      assert service(segs[i].text, sourceLang, targetLang).None?;
    }
  }

  /**
    Segments are translated independently: translating a concatenation is
    concatenating the translations.
   */
  lemma {:induction false} TranslateSegmentsAppend(service: Service, a: seq<Segment>, b: seq<Segment>, sourceLang: string, targetLang: string)
    ensures TranslateSegments(service, a + b, sourceLang, targetLang)
         == TranslateSegments(service, a, sourceLang, targetLang) + TranslateSegments(service, b, sourceLang, targetLang)
    decreases |b|
  {
    if b != [] {
      assert (a + b)[..|a + b| - 1] == a + b[..|b| - 1];
      TranslateSegmentsAppend(service, a, b[..|b| - 1], sourceLang, targetLang);
    } else {
      assert a + b == a;
    }
  }
}

=== FILE: tts_engine.dfy ===
/**
  The speech-synthesis stage: voice resolution from a fixed table, the style
  preset, and the index-aligned list of generated audio files.
 */
module TtsEngine {
  import opened Common
  import opened Text
  import opened IndexFormat
  import opened Paths
  import opened Segments

  /** `VOICE_MAPPING`: language code to gender to Edge-TTS voice. */
  const VoiceMapping: map<string, map<string, string>> := map[
    "vi" := map["female" := "vi-VN-HoaiMyNeural", "male" := "vi-VN-NamMinhNeural"],
    "en" := map["female" := "en-US-JennyNeural", "male" := "en-US-GuyNeural"],
    "zh" := map["female" := "zh-CN-XiaoxiaoNeural", "male" := "zh-CN-YunxiNeural"],
    "ja" := map["female" := "ja-JP-NanamiNeural", "male" := "ja-JP-KeitaNeural"],
    "ko" := map["female" := "ko-KR-SunHiNeural", "male" := "ko-KR-InJoonNeural"],
    "fr" := map["female" := "fr-FR-DeniseNeural", "male" := "fr-FR-HenriNeural"],
    "es" := map["female" := "es-ES-ElviraNeural", "male" := "es-ES-AlvaroNeural"],
    "de" := map["female" := "de-DE-KatjaNeural", "male" := "de-DE-ConradNeural"],
    "ru" := map["female" := "ru-RU-SvetlanaNeural", "male" := "ru-RU-DmitryNeural"],
    "th" := map["female" := "th-TH-PremwadeeNeural", "male" := "th-TH-NiwatNeural"],
    "id" := map["female" := "id-ID-GadisNeural", "male" := "id-ID-ArdiNeural"]
  ]

  /** The voice used when neither the language nor its base language is in the table. */
  const DefaultVoice := "en-US-JennyNeural"

  /** Every entry of a voice table has a female voice, the gender fallback. */
  predicate HasFemaleFallback(table: map<string, map<string, string>>) {
    forall lang :: lang in table ==> "female" in table[lang]
  }

  lemma VoiceMappingHasFemaleFallback()
    ensures HasFemaleFallback(VoiceMapping)
  {
  }

  /** Every voice the table names, and the default. */
  function KnownVoices(): set<string> {
    (set lang, g | lang in VoiceMapping && g in VoiceMapping[lang] :: VoiceMapping[lang][g]) + {DefaultVoice}
  }

  /** `VOICE_MAPPING[lang].get(gender, VOICE_MAPPING[lang]["female"])`. */
  function EntryVoice(lang: string, gender: string): (r: string)
    requires lang in VoiceMapping
    ensures gender in VoiceMapping[lang] ==> r == VoiceMapping[lang][gender]
    ensures gender !in VoiceMapping[lang] ==> r == VoiceMapping[lang]["female"]
    ensures r in KnownVoices()
  {
    VoiceMappingHasFemaleFallback();
    var g := if gender in VoiceMapping[lang] then gender else "female";
    KnownVoice(lang, g);
    VoiceMapping[lang][g]
  }

  /** A voice the table lists is a known voice. */
  lemma KnownVoice(lang: string, g: string)
    requires lang in VoiceMapping && g in VoiceMapping[lang]
    ensures VoiceMapping[lang][g] in KnownVoices()
  {
  }

  /** `lang.split('-')[0]`: the language without its region suffix. */
  function BaseLanguage(lang: string): (r: string)
    ensures |r| <= |lang| && r == lang[..|r|]
    ensures '-' !in r
    ensures |r| < |lang| ==> lang[|r|] == '-'
  {
    BeforeFirst(lang, '-')
  }

  /**
    `get_voice`: exact language code, then base language, then the default;
    the result is always a voice the table names, or the default.
   */
  function GetVoice(lang: string, gender: string): (r: string)
    ensures lang in VoiceMapping ==> r == EntryVoice(lang, gender)
    ensures lang !in VoiceMapping && BaseLanguage(lang) in VoiceMapping ==> r == EntryVoice(BaseLanguage(lang), gender)
    ensures lang !in VoiceMapping && BaseLanguage(lang) !in VoiceMapping ==> r == DefaultVoice
    ensures r in KnownVoices()
  {
    if lang in VoiceMapping then EntryVoice(lang, gender)
    else
      var base := BaseLanguage(lang);
      if base in VoiceMapping then EntryVoice(base, gender) else DefaultVoice
  }

  /** No table key carries a region suffix. */
  lemma TableKeysHaveNoRegion(lang: string)
    requires lang in VoiceMapping
    ensures '-' !in lang
  {
  }

  /** A regional code resolves to the same voice as its base language when only the base is listed. */
  lemma RegionalCodeFallsBack(base: string, region: string, gender: string)
    requires base in VoiceMapping
    requires base + "-" + region !in VoiceMapping
    ensures GetVoice(base + "-" + region, gender) == GetVoice(base, gender)
  {
    TableKeysHaveNoRegion(base);
    BeforeFirstOfSeparated(base, region);
  }

  /** Splitting `base-region` at the first '-' gives `base` when `base` has no '-'. */
  lemma {:induction false} BeforeFirstOfSeparated(base: string, region: string)
    requires '-' !in base
    ensures BaseLanguage(base + "-" + region) == base
    decreases |base|
  {
    if base != [] {
      assert (base + "-" + region)[1..] == base[1..] + "-" + region;
      BeforeFirstOfSeparated(base[1..], region);
    }
  }

  /** An unknown gender gets the female voice of whichever entry is chosen. */
  lemma UnknownGenderIsFemale(lang: string, gender: string)
    requires gender != "female" && gender != "male"
    ensures GetVoice(lang, gender) == GetVoice(lang, "female")
  {
    EntriesAreFemaleAndMale(lang);
    EntriesAreFemaleAndMale(BaseLanguage(lang));
  }

  /** Each table entry offers exactly a female and a male voice. */
  lemma EntriesAreFemaleAndMale(lang: string)
    ensures lang in VoiceMapping ==> VoiceMapping[lang].Keys == {"female", "male"}
  {
  }

  /** A speaking-rate and pitch adjustment, in Edge-TTS's string syntax. */
  datatype Prosody = Prosody(rate: string, pitch: string)

  /** The style preset: "tvb" speeds up and raises the pitch; every other style is neutral. */
  function StyleProsody(style: string): (r: Prosody)
    ensures style == "tvb" <==> r == Prosody("+15%", "+5Hz")
    ensures style != "tvb" <==> r == Prosody("+0%", "+0Hz")
  {
    if style == "tvb" then Prosody("+15%", "+5Hz") else Prosody("+0%", "+0Hz")
  }

  /** `seg_{i:04d}.mp3`. */
  function SegmentFileName(i: nat): string {
    "seg_" + Format04(i) + ".mp3"
  }

  /** `os.path.join(output_dir, f"seg_{i:04d}.mp3")`. */
  function SegmentPath(outputDir: string, i: nat): (r: string)
    ensures outputDir != [] && outputDir[|outputDir| - 1] != '/' ==> r == outputDir + "/" + SegmentFileName(i)
    ensures (outputDir == [] || outputDir[|outputDir| - 1] == '/') ==> r == outputDir + SegmentFileName(i)
  {
    Join(outputDir, SegmentFileName(i))
  }

  /** Distinct segment indices never share an audio file. */
  lemma SegmentPathInjective(outputDir: string, i: nat, j: nat)
    requires SegmentPath(outputDir, i) == SegmentPath(outputDir, j)
    ensures i == j
  {
    JoinCancel(outputDir, SegmentFileName(i), SegmentFileName(j));
    var a := SegmentFileName(i);
    var b := SegmentFileName(j);
    assert |a| == |b|;
    assert Format04(i) == a[4..|a| - 4];
    assert Format04(j) == b[4..|b| - 4];
    Format04Injective(i, j);
  }

  /** One call to the synthesis engine: `edge_tts.Communicate(text, voice, rate, pitch).save(file)`. */
  datatype SpeechRequest = SpeechRequest(text: string, file: string, voice: string, prosody: Prosody)

  /** The engine, as an oracle: true when the file was written, false when the call raised. */
  type Synthesizer = SpeechRequest -> bool

  /** The voice and prosody chosen once, before the loop, for every segment of a run. */
  datatype Delivery = Delivery(voice: string, prosody: Prosody)

  /** The delivery of a run: always the female voice of the target language, and the style's prosody. */
  function DeliveryFor(style: string, targetLang: string): (d: Delivery)
    ensures d.voice == GetVoice(targetLang, "female")
    ensures d.voice in KnownVoices()
    ensures targetLang in VoiceMapping ==> d.voice == VoiceMapping[targetLang]["female"]
    ensures style == "tvb" <==> d.prosody == Prosody("+15%", "+5Hz")
    ensures style != "tvb" <==> d.prosody == Prosody("+0%", "+0Hz")
  {
    VoiceMappingHasFemaleFallback();
    Delivery(GetVoice(targetLang, "female"), StyleProsody(style))
  }

  /** The request issued for segment `i`, written to `file` (only made when its text is not blank). */
  function RequestFor(segs: seq<Segment>, i: nat, file: string, delivery: Delivery): SpeechRequest
    requires i < |segs|
  {
    SpeechRequest(segs[i].text, file, delivery.voice, delivery.prosody)
  }

  /** What the loop does for segment `i`: nothing for a blank text, otherwise one request for `file`. */
  function Job(segs: seq<Segment>, i: nat, file: string, delivery: Delivery): Option<SpeechRequest>
    requires i < |segs|
  {
    if IsBlank(segs[i].text) then None else Some(RequestFor(segs, i, file, delivery))
  }

  /** The jobs of a run, one per segment in segment order, segment `k` writing to `name(k)`. */
  function Jobs(segs: seq<Segment>, name: nat -> string, delivery: Delivery): (r: seq<Option<SpeechRequest>>)
    ensures |r| == |segs|
    ensures forall k :: 0 <= k < |segs| ==> r[k] == Job(segs, k, name(k), delivery)
  {
    seq(|segs|, k requires 0 <= k < |segs| => Job(segs, k, name(k), delivery))
  }

  /** A job is done when it is skipped or its synthesis returns. */
  predicate Done(synth: Synthesizer, job: Option<SpeechRequest>) {
    job.None? || synth(job.value)
  }

  /** The entry a done job leaves in the result list: its file, or `None` when skipped. */
  function EntryOf(job: Option<SpeechRequest>): Option<string> {
    match job
    case None => None
    case Some(req) => Some(req.file)
  }

  /** Synthesis of segment `i` either is skipped (blank text) or succeeds. */
  predicate Synthesized(synth: Synthesizer, segs: seq<Segment>, i: nat, outputDir: string, delivery: Delivery)
    requires i < |segs|
  {
    Done(synth, Job(segs, i, SegmentPath(outputDir, i), delivery))
  }

  /**
    The loop of `generate_audio_segments` from job `i` on. It stops at the
    first job whose synthesis raises, because the source does not catch that
    exception: the failure carries the job's index.
   */
  function RunJobs(synth: Synthesizer, jobs: seq<Option<SpeechRequest>>, i: nat): (r: Result<seq<Option<string>>, nat>)
    requires i <= |jobs|
    ensures r.Success? <==> forall k :: i <= k < |jobs| ==> Done(synth, jobs[k])
    ensures r.Success? ==> |r.value| == |jobs| - i
    ensures r.Success? ==> forall k :: 0 <= k < |r.value| ==> r.value[k] == EntryOf(jobs[i + k])
    ensures r.Failure? ==> i <= r.error < |jobs| && !Done(synth, jobs[r.error])
    ensures r.Failure? ==> forall k :: i <= k < r.error ==> Done(synth, jobs[k])
    decreases |jobs| - i
  {
    if i == |jobs| then Success([])
    else if !Done(synth, jobs[i]) then Failure(i)
    else
      match RunJobs(synth, jobs, i + 1)
      case Success(rest) => Success([EntryOf(jobs[i])] + rest)
      case Failure(k) => Failure(k)
  }

  /** The per-segment facts that tie a job to its segment. */
  lemma JobFacts(segs: seq<Segment>, k: nat, file: string, delivery: Delivery)
    requires k < |segs|
    ensures var job := Job(segs, k, file, delivery);
            && (EntryOf(job).None? <==> IsBlank(segs[k].text))
            && (EntryOf(job).Some? ==> EntryOf(job).value == file)
  {
  }

  /**
    The run of `generate_audio_segments` once the voice and prosody are
    chosen, segment `k` writing to `name(k)`.
   */
  function Generate(synth: Synthesizer, segs: seq<Segment>, name: nat -> string, delivery: Delivery): (r: Result<seq<Option<string>>, nat>)
    ensures r.Success? <==> forall k :: 0 <= k < |segs| ==> Done(synth, Job(segs, k, name(k), delivery))
    ensures r.Success? ==> |r.value| == |segs|
    ensures r.Success? ==> forall k :: 0 <= k < |segs| ==> (r.value[k].None? <==> IsBlank(segs[k].text))
    ensures r.Success? ==> forall k :: 0 <= k < |segs| && r.value[k].Some? ==> r.value[k].value == name(k)
    ensures r.Failure? ==> r.error < |segs| && !IsBlank(segs[r.error].text)
    ensures r.Failure? ==> !Done(synth, Job(segs, r.error, name(r.error), delivery))
    ensures r.Failure? ==> forall k :: 0 <= k < r.error ==> Done(synth, Job(segs, k, name(k), delivery))
  {
    var jobs := Jobs(segs, name, delivery);
    var r := RunJobs(synth, jobs, 0);
    assert r.Success? ==> forall k :: 0 <= k < |segs| ==>
      (r.value[k].None? <==> IsBlank(segs[k].text)) && (r.value[k].Some? ==> r.value[k].value == name(k)) by {
      if r.Success? {
        forall k | 0 <= k < |segs| {
          JobFacts(segs, k, name(k), delivery);
        }
      }
    }
    r
  }

  /**
    `generate_audio_segments`: one voice and one prosody for the whole run,
    then on success a list as long as `segs`, whose entry `i` is `None` for a
    blank text and `output_dir/seg_{i:04d}.mp3` otherwise; on failure the
    index of the first segment whose synthesis raised.
   */
  function GenerateAudioSegments(synth: Synthesizer, segs: seq<Segment>, outputDir: string, style: string, targetLang: string): (r: Result<seq<Option<string>>, nat>)
    ensures r.Success? ==> |r.value| == |segs|
    ensures r.Success? ==> forall k :: 0 <= k < |segs| ==> (r.value[k].None? <==> IsBlank(segs[k].text))
    ensures r.Success? ==> forall k :: 0 <= k < |segs| && r.value[k].Some? ==> r.value[k].value == SegmentPath(outputDir, k)
    ensures r.Failure? ==> r.error < |segs| && !IsBlank(segs[r.error].text)
    ensures var delivery := DeliveryFor(style, targetLang);
            && (r.Success? <==> forall k :: 0 <= k < |segs| ==> Synthesized(synth, segs, k, outputDir, delivery))
            && (r.Failure? ==> !Synthesized(synth, segs, r.error, outputDir, delivery))
            && (r.Failure? ==> forall k :: 0 <= k < r.error ==> Synthesized(synth, segs, k, outputDir, delivery))
  {
    var delivery := DeliveryFor(style, targetLang);
    var name := (k: nat) => SegmentPath(outputDir, k);
    var r := Generate(synth, segs, name, delivery);
    SynthesizedIsDone(synth, segs, outputDir, name, delivery);
    r
  }

  /** Under the naming `seg_{k:04d}.mp3`, a segment is synthesized exactly when its job is done. */
  lemma SynthesizedIsDone(synth: Synthesizer, segs: seq<Segment>, outputDir: string, name: nat -> string, delivery: Delivery)
    requires forall k: nat :: name(k) == SegmentPath(outputDir, k)
    ensures forall k :: 0 <= k < |segs| ==>
      (Synthesized(synth, segs, k, outputDir, delivery) <==> Done(synth, Job(segs, k, name(k), delivery)))
  {
  }

  /** The generated files are pairwise distinct. */
  lemma GeneratedFilesDistinct(synth: Synthesizer, segs: seq<Segment>, outputDir: string, style: string, targetLang: string, i: nat, j: nat)
    requires GenerateAudioSegments(synth, segs, outputDir, style, targetLang).Success?
    requires var files := GenerateAudioSegments(synth, segs, outputDir, style, targetLang).value;
             i < |files| && j < |files| && i != j && files[i].Some? && files[j].Some?
    ensures var files := GenerateAudioSegments(synth, segs, outputDir, style, targetLang).value;
            files[i].value != files[j].value
  {
    var files := GenerateAudioSegments(synth, segs, outputDir, style, targetLang).value;
    if files[i].value == files[j].value {
      SegmentPathInjective(outputDir, i, j);
    }
  }
}

=== FILE: video_processor.dfy ===
/** Validation of a video file before upload, its basic info, and the thumbnail path. */
module VideoProcessor {
  import opened Common
  import opened Text
  import opened Paths
  import opened Config

  /** Bytes in the megabyte of the size limit (`1024 * 1024`). */
  const BytesPerMb: nat := 1024 * 1024

  /**
    What the operating system reports about a path: whether it exists, the
    bytes it holds (its size is their number), and `mimetypes.guess_type`'s
    guess (`None` also standing for a guess that raised, which is ignored).
   */
  datatype VideoFile = VideoFile(path: string, present: bool, contents: seq<byte>, mimeGuess: Option<string>) {
    function Size(): nat {
      |contents|
    }
  }

  /** One finding of `validate_video`. */
  datatype VideoError =
    | NotFound(path: string)
    | TooLarge(sizeBytes: nat, maxMb: int)
    | UnsupportedFormat(ext: string, supported: seq<string>)
    | NotAVideo(mime: string)

  /** `(is_valid, errors)`. */
  datatype Validation = Validation(valid: bool, errors: seq<VideoError>)

  /** Lower-casing only changes letters, so it brings in no '.' and no '/'. */
  lemma LowerAddsNoDotOrSlash(t: string)
    requires '.' !in t && '/' !in t
    ensures '.' !in Lower(t) && '/' !in Lower(t)
  {
    forall i | 0 <= i < |t|
      ensures Lower(t)[i] != '.' && Lower(t)[i] != '/'
    {
      assert t[i] in t;
    }
  }

  /** Lower-casing a dot followed by dot-free text, then stripping leading dots, drops exactly that dot. */
  lemma LowerStripsOneDot(e: string)
    requires e != [] && e[0] == '.' && '.' !in e[1..] && '/' !in e[1..]
    ensures LStripChar(Lower(e), '.') == Lower(e[1..])
    ensures Lower(e) == ['.'] + Lower(e[1..])
    ensures '.' !in Lower(e[1..]) && '/' !in Lower(e[1..])
  {
    var l := Lower(e);
    var t := Lower(e[1..]);
    LowerCons(e);
    assert l[1..] == t;
    LowerAddsNoDotOrSlash(e[1..]);
    assert t == [] || t[0] in t;
    assert LStripChar(t, '.') == t;
  }

  /** `os.path.splitext(path)[1].lower().lstrip('.')`. */
  function FileExtension(path: string): (ext: string)
    ensures '.' !in ext && '/' !in ext
    ensures SplitExt(path).1 == [] ==> ext == []
    ensures SplitExt(path).1 != [] ==> Lower(SplitExt(path).1) == ['.'] + ext
  {
    var e := SplitExt(path).1;
    if e == [] then
      assert Lower(e) == [];
      LStripChar(Lower(e), '.')
    else
      LowerStripsOneDot(e);
      LStripChar(Lower(e), '.')
  }

  /** The extension test is case-insensitive: lower-casing the path changes nothing. */
  lemma ExtensionIsCaseInsensitive(path: string)
    ensures FileExtension(Lower(path)) == FileExtension(path)
  {
    SplitExtLower(path);
    LowerIdempotent(SplitExt(path).1);
  }

  /** The size check: over the limit in megabytes, compared exactly. */
  predicate TooBig(cfg: TikTokConfig, size: nat) {
    size > cfg.maxVideoSizeMb * BytesPerMb
  }

  /** The mime check: a guess that does not start with "video/" (no guess passes). */
  predicate NotVideoMime(mime: Option<string>) {
    mime.Some? && mime.value != "" && !StartsWith(mime.value, "video/")
  }

  /** Orders the findings of an existing file: size, then format, then mime. */
  function Rank(e: VideoError): nat {
    match e
    case NotFound(_) => 0
    case TooLarge(_, _) => 1
    case UnsupportedFormat(_, _) => 2
    case NotAVideo(_) => 3
  }

  /** `errs` reports some finding of kind `rank`. */
  predicate Reports(errs: seq<VideoError>, rank: nat) {
    exists i :: 0 <= i < |errs| && Rank(errs[i]) == rank
  }

  /** Up to one finding of each rank 1, 2, 3, concatenated, are in rank order and reported exactly when present. */
  lemma FindingsInOrder(size: seq<VideoError>, format: seq<VideoError>, mime: seq<VideoError>)
    requires |size| <= 1 && |format| <= 1 && |mime| <= 1
    requires forall e :: e in size ==> Rank(e) == 1
    requires forall e :: e in format ==> Rank(e) == 2
    requires forall e :: e in mime ==> Rank(e) == 3
    ensures var errs := size + format + mime;
            && |errs| <= 3
            && (forall a, b :: 0 <= a < b < |errs| ==> 1 <= Rank(errs[a]) < Rank(errs[b]))
            && (Reports(errs, 1) <==> size != [])
            && (Reports(errs, 2) <==> format != [])
            && (Reports(errs, 3) <==> mime != [])
  {
    var errs := size + format + mime;
    assert forall i :: 0 <= i < |errs| ==> errs[i] in size || errs[i] in format || errs[i] in mime;
    assert size != [] ==> Rank(errs[0]) == 1;
    assert format != [] ==> Rank(errs[|size|]) == 2;
    assert mime != [] ==> Rank(errs[|errs| - 1]) == 3;
  }

  /** A finding of the concatenation is a finding of one of its parts. */
  lemma FindingsFrom(size: seq<VideoError>, format: seq<VideoError>, mime: seq<VideoError>)
    ensures forall e :: e in size + format + mime ==> e in size || e in format || e in mime
  {
  }

  /**
    The checks `validate_video` makes on an existing file of `size` bytes with
    extension `ext` and mime guess `mime`: the size, format and mime findings
    that apply, in that order, each carrying the values of its message.
   */
  function ExistingFileFindings(cfg: TikTokConfig, size: nat, ext: string, mime: Option<string>): (errs: seq<VideoError>)
    ensures |errs| <= 3
    ensures forall a, b :: 0 <= a < b < |errs| ==> 1 <= Rank(errs[a]) < Rank(errs[b])
    ensures Reports(errs, 1) <==> TooBig(cfg, size)
    ensures Reports(errs, 2) <==> ext !in cfg.supportedFormats
    ensures Reports(errs, 3) <==> NotVideoMime(mime)
    ensures forall e :: e in errs ==>
              || e == TooLarge(size, cfg.maxVideoSizeMb)
              || e == UnsupportedFormat(ext, cfg.supportedFormats)
              || (mime.Some? && e == NotAVideo(mime.value))
  {
    var sizeErr := if TooBig(cfg, size) then [TooLarge(size, cfg.maxVideoSizeMb)] else [];
    var formatErr := if ext !in cfg.supportedFormats then [UnsupportedFormat(ext, cfg.supportedFormats)] else [];
    var mimeErr := if NotVideoMime(mime) then [NotAVideo(mime.value)] else [];
    FindingsInOrder(sizeErr, formatErr, mimeErr);
    FindingsFrom(sizeErr, formatErr, mimeErr);
    sizeErr + formatErr + mimeErr
  }

  /**
    `validate_video`: a missing file yields just the not-found error; an
    existing one the size, format and mime findings that apply, in that order,
    each carrying the values of its message; valid exactly when nothing was found.
   */
  function ValidateVideo(cfg: TikTokConfig, file: VideoFile): (r: Validation)
    ensures !file.present ==> r == Validation(false, [NotFound(file.path)])
    ensures r.valid <==> r.errors == []
    ensures file.present ==> |r.errors| <= 3
    ensures file.present ==> forall a, b :: 0 <= a < b < |r.errors| ==> 1 <= Rank(r.errors[a]) < Rank(r.errors[b])
    ensures file.present ==> (Reports(r.errors, 1) <==> TooBig(cfg, file.Size()))
    ensures file.present ==> (Reports(r.errors, 2) <==> FileExtension(file.path) !in cfg.supportedFormats)
    ensures file.present ==> (Reports(r.errors, 3) <==> NotVideoMime(file.mimeGuess))
    ensures file.present ==> forall e :: e in r.errors ==>
              || e == TooLarge(file.Size(), cfg.maxVideoSizeMb)
              || e == UnsupportedFormat(FileExtension(file.path), cfg.supportedFormats)
              || (file.mimeGuess.Some? && e == NotAVideo(file.mimeGuess.value))
  {
    if !file.present then Validation(false, [NotFound(file.path)])
    else
      var ext := FileExtension(file.path);
      var errors := ExistingFileFindings(cfg, file.Size(), ext, file.mimeGuess);
      assert Reports(errors, 1) <==> TooBig(cfg, file.Size());
      assert Reports(errors, 2) <==> ext !in cfg.supportedFormats;
      assert Reports(errors, 3) <==> NotVideoMime(file.mimeGuess);
      Validation(errors == [], errors)
  }

  /** `get_video_info`'s result; duration, width, height and aspect ratio are always 0. */
  datatype VideoInfo = VideoInfo(path: string, present: bool, sizeMb: real, duration: int, width: int,
                                 height: int, aspectRatio: int, format: string)

  /** `get_video_info`: defaults for a missing file; otherwise its size in megabytes and its extension. */
  function GetVideoInfo(file: VideoFile): (info: VideoInfo)
    ensures info.path == file.path && info.present == file.present
    ensures !file.present ==> info.sizeMb == 0.0 && info.format == "unknown"
    ensures file.present ==> info.format == FileExtension(file.path)
    ensures file.present ==> info.sizeMb * (BytesPerMb as real) == file.Size() as real
    ensures info.duration == 0 && info.width == 0 && info.height == 0 && info.aspectRatio == 0
  {
    var info := VideoInfo(file.path, file.present, 0.0, 0, 0, 0, 0, "unknown");
    if !file.present then info
    else info.(sizeMb := file.Size() as real / BytesPerMb as real, format := FileExtension(file.path))
  }

  /** The format `get_video_info` reports is the one `validate_video` checks. */
  lemma InfoFormatMatchesValidation(cfg: TikTokConfig, file: VideoFile)
    requires file.present
    ensures Reports(ValidateVideo(cfg, file).errors, 2) <==> GetVideoInfo(file).format !in cfg.supportedFormats
  {
  }

  /** `create_thumbnail`'s path: the given one verbatim, else the split-off root plus "_thumbnail.jpg". */
  function ThumbnailPath(videoPath: string, outputPath: Option<string>): (r: string)
    ensures outputPath.Some? ==> r == outputPath.value
    ensures outputPath.None? ==> r == SplitExt(videoPath).0 + "_thumbnail.jpg"
  {
    match outputPath
    case Some(p) => p
    case None => SplitExt(videoPath).0 + "_thumbnail.jpg"
  }

  /** The default thumbnail never overwrites the video it is made for. */
  lemma DefaultThumbnailIsNotTheVideo(videoPath: string)
    ensures ThumbnailPath(videoPath, None) != videoPath
  {
  }

  /** Saving the placeholder image failed. */
  datatype ThumbnailError = CouldNotCreateThumbnail(path: string)

  /** `create_thumbnail`: the path written, or the error raised when saving fails. */
  function CreateThumbnail(videoPath: string, outputPath: Option<string>, saved: bool): (r: Result<string, ThumbnailError>)
    ensures r.Success? <==> saved
    ensures r.Success? ==> r.value == ThumbnailPath(videoPath, outputPath)
    ensures r.Failure? ==> r.error.path == ThumbnailPath(videoPath, outputPath)
  {
    var path := ThumbnailPath(videoPath, outputPath);
    if saved then Success(path) else Failure(CouldNotCreateThumbnail(path))
  }
}
